=== FILE: README.md ===
# Bedrock agent chat front-ends — a Dafny model

The repository holds six near-duplicate Streamlit chat front-ends for an Amazon Bedrock agent
(`app-ecs.py`, `app_cognito_clean.py`, `app_cognito.py`, `app_enhanced.py`,
`app_parameter_store.py`, `app_simple.py`) and a Parameter Store configuration loader
(`config/parameter_store.py`). This project models the logic they hold once the remote calls
are replaced by abstract inputs:

- `wrappers.dfy` — `Option` (also Python `None`) and `Result` (a value or a raised exception's text).
- `text.dfy` — the Python string built-ins the code relies on: `in`, `strip()`/`lstrip(chars)`,
  `replace(pat, "")`, `str(n)`.
- `citations.dfy` — `format_citations`: the `%\[(\d+)\]%` → `<sup>[\1]</sup>` rewrite, the
  numbered "Sources" block, and the `KeyError` a reference outside S3 raises.
- `agent.dfy` — one agent reply: `json.loads` as an abstract parse, the `{"instruction", "result"}`
  envelope unwrap, the ECS blank-answer apology, the ECS error-hint classifier and the fixed
  retry hint of the other front-ends.
- `session.dfy` — `st.session_state` as a record of optional keys, with one shared model of
  `init_session_state`, prompt submission, "New Chat", logout, chat export and history display,
  and per-variant flags for the ways the six front-ends differ.
- `cognito.dfy` — both `authenticate_user` functions and the two login forms.
- `parameter_store.dfy` — `ParameterStoreConfig.get_parameter` (cache),
  `get_parameters_by_path` (loop, key derivation), `get_app_config` (store or environment) and the
  startup guard of `app_parameter_store.py`.

Abstract inputs: `invoke_agent` is a `Result<Reply, string>`; `json.loads` is a function parameter
`loads: string -> Parsed`; Cognito's `initiate_auth` is an `AuthResponse`; SSM answers are
`SsmAnswer`/`PathAnswer`; `uuid4()` and `datetime.now()` are parameters (`freshId`, `now`,
`timestamp`); the environment is a `map<string, string>`.

How the variants differ, as modelled (`Session` flags):

| behaviour | ECS | Cognito (clean) | Cognito | enhanced | parameter store | simple |
|---|---|---|---|---|---|---|
| agent-id guard before the call | yes | — | — | — | at load time | — |
| blank answer → apology | yes | — | — | — | — | — |
| fallback assistant message on failure | yes | — | — | — | — | — |
| "New Chat" | reset | reset | reset | no-op | no-op | reset |
| logout | callback flags | auth fields | auth fields + messages | — | — | — |
| export fields | id, time, messages, count, user | same | same | id, time, messages, count | id, time, messages | id, time, messages, count |
| history through `format_citations` | — | — | — | yes | yes | — |

## Model

| member | source | states |
|---|---|---|
| Text.LStrip | config/parameter_store.py:50 | `lstrip(chars)` returns the longest suffix not starting with a stripped character, and everything dropped was a stripped character |
| Text.RStrip | app-ecs.py:322 | `rstrip` returns the longest prefix not ending with a stripped character, and everything dropped was a stripped character |
| Text.StripEmptyIff | app-ecs.py:322 | `s.strip()` is empty exactly when every character of `s` is stripped |
| Text.RemoveAllAbsent | config/parameter_store.py:50 | `replace(path, '')` leaves a name in which the path does not occur unchanged |
| Text.RemoveAllFirstOccurrence | config/parameter_store.py:50 | `replace(pat, '')` keeps everything before the first occurrence, drops that occurrence and treats the rest the same way; with `RemoveAllAbsent` this fixes the result for every input |
| Text.NatToDecimal | app_enhanced.py:184 | the badge number is rendered as ASCII decimal digits with no leading zero, and reading them back gives the number |
| Citations.DigitRun | app_enhanced.py:173 | `\d+` takes the maximal run of ASCII digits |
| Citations.MarkerAt | app_enhanced.py:173 | a marker found at the front is `%[`, one or more ASCII digits, `]%` |
| Citations.SubstituteMarkersRendersPieces | app_enhanced.py:173 | for text made of markers and characters other than `%`, every marker becomes a superscript of its own digits and every other character is kept, in order |
| Citations.SubstitutePlainPrefix | app_parameter_store.py:202 | a stretch without `%` is copied through unchanged and the scan resumes after it |
| Citations.SubstituteMarkerFirst | app_parameter_store.py:202 | a leading marker is replaced by `<sup>[digits]</sup>` with the same digits |
| Citations.SubstituteMarkers | app_enhanced.py:173 | the substitution never shortens the text: each replacement is longer than the marker it replaces |
| Citations.SubstituteMarkersNoPercent | app_enhanced.py:173 | text without `%` is left unchanged by the substitution |
| Citations.SubstituteOneMarker | app_enhanced.py:173 | one marker between two plain stretches becomes its superscript and nothing else changes |
| Citations.FormatWithoutCitations | app_enhanced.py:168-169 | with no citations the text is returned as is, markers included |
| Citations.FormatCitations | app_enhanced.py:167-191 | `format_citations` raises the `KeyError` (`'s3Location'`) exactly when there are citations and some reference has a location that is not an S3 one, whatever the text; without citations it returns the text |
| Citations.FormatWithCitations | app_enhanced.py:173-191 | with citations whose references are all S3, the substituted text is a prefix of the result and is followed only by the header, badges numbered 1..N with the URIs in order, and the closing tag |
| Citations.SourceEntriesNumbering | app_enhanced.py:180-187 | the running counter numbers the badges consecutively: the badge at position i carries number first + i |
| Citations.LocationsOf | app_enhanced.py:181-184 | one location per retrieved reference, in order |
| Citations.FlattenReferencesCount | app_parameter_store.py:208-215 | N, the number of badges, is the total count of retrieved references over all citations |
| Citations.FlattenReferencesAppend | app_enhanced.py:180-181 | badges follow citation order, then reference order within a citation |
| Citations.FormatOneMarkerOneReference | app_parameter_store.py:197-219 | one marker and one citation with one S3 reference give one superscript with the marker's digits and exactly one badge, numbered 1 |
| Agent.UnwrapEnvelope | app_simple.py:246-251 | a result that is not an error is the `result` of an object holding both keys and the text itself otherwise; malformed JSON keeps the text; a string or list holding both keys, and any scalar, raise a TypeError |
| Agent.IsBlankIff | app-ecs.py:322-323 | an answer is blank exactly when it is empty or all whitespace |
| Agent.EnvelopeYieldsResult | app_cognito.py:322-327 | an envelope answer normalizes to its `result` value |
| Agent.PlainTextKept | app_enhanced.py:352-357 | undecodable text, or an object without both keys, is kept verbatim |
| Agent.BlankBecomesApology | app-ecs.py:322-330 | a blank answer becomes the fixed apology, which passes the unwrap unchanged |
| Agent.BlankKeptWithoutFallback | app_cognito_clean.py:330-337 | outside ECS a blank answer is stored as it is |
| Agent.NormalizeReply | app-ecs.py:320-330 | an answer that is not an envelope is stored as it came unless ECS replaced it for being blank; with the fallback on, a blank text is stored only when it was an envelope's `result` |
| Agent.ErrorHintFirstMatch | app-ecs.py:342-349 | the hint is that of the first of AccessDenied, ResourceNotFound, ValidationException found in the error text, and the generic hint exactly when none is |
| Agent.ErrorHint | app-ecs.py:342-349 | the permissions hint exactly when the error mentions AccessDenied; the generic hint only when none of the three names occurs; never the other front-ends' fixed retry hint |
| Session.Init | app_enhanced.py:72-84 | `init_session_state` makes every key of the variant present and never overwrites a present key; each absent key gets the variant's default (the drawn id, empty messages, citations and trace, count 0, the current time, and the Cognito and ECS login defaults); keys of other variants stay as they were |
| Session.InitOfBlank | app_simple.py:112-124 | on first run: fresh id, empty messages, count 0, empty citations and trace; Cognito and ECS login defaults |
| Session.InitNoOp | app_parameter_store.py:130-142 | re-running `init_session_state` on an initialised state changes nothing |
| Session.Submit | app-ecs.py:300-352 | a non-empty prompt appends one user message and adds 1 to the count first; an assistant message follows exactly on success, on a failure in ECS, or when showing a stored answer fails; citations and trace are replaced exactly when an answer is stored; session id and login fields never change; the ECS guard trips exactly on a falsy agent id or alias; errors are reported with a hint classified from the error text in ECS, no hint in the parameter-store variant and the fixed retry hint in the other four; an answer is stored whenever the guard passes, the call succeeds and its text can be read; showing the answer fails only with the `KeyError` of an unformattable citation, shown with the same hint as an agent error (the fixed retry hint in app_enhanced.py, none in the parameter-store variant) |
| Session.SubmitStoresNormalizedReply | app_simple.py:243-256 | a reply adds exactly the user message and the normalized answer, or, when unwrapping raises, goes down the failure path |
| Session.SubmitInvocationFails | app-ecs.py:338-352 | a raising invocation keeps the user message; only ECS appends the fixed fallback, and its hint is the classifier's; the parameter-store variant shows no hint and the others the fixed retry hint; citations and trace stay |
| Session.SubmitUnconfigured | app-ecs.py:300-309 | ECS without agent ids keeps the user message and the count, and changes nothing else |
| Session.CountUsersAppend | app_simple.py:226-227 | appending a message adds one to the user count exactly when it is a user message |
| Session.SubmitKeepsCount | app_simple.py:226-227 | `message_count` stays equal to the number of user messages |
| Session.EcsSubmitKeepsPairing | app-ecs.py:332-352 | in configured ECS every user turn is followed by exactly one assistant turn |
| Session.EcsSubmitAnswers | app-ecs.py:332-352 | configured ECS appends the user message and exactly one assistant message, whether the call succeeds or fails |
| Session.PairedAppend | app-ecs.py:300-352 | a user turn followed by its answer keeps the history alternating |
| Session.SubmitEnvelopeExample | app_cognito.py:300-332 | a first prompt answered with an envelope yields two messages, the second being the `result`, and a count of 1 |
| Session.NewChat | app_cognito_clean.py:268-274 | a resetting "New Chat" empties messages, citations and trace, zeroes the count and sets a new id and start time together, leaving login fields; elsewhere it returns the state unchanged |
| Session.NewChatStartsOver | app-ecs.py:253-260 | after a reset the session id differs from the old one and the count and pairing invariants hold |
| Session.NewChatKeepsConversation | app_enhanced.py:200-202 | where "New Chat" re-runs initialisation, messages, count and session id survive |
| Session.Logout | app_cognito.py:229-234 | logout clears the variant's login fields (and, in app_cognito.py, the messages) and never touches count, session id, citations, trace or the login fields of the other variants |
| Session.CognitoLogoutBreaksCount | app_cognito.py:229-234 | after app_cognito.py's logout the count exceeds the number of user messages |
| Session.Export | app_parameter_store.py:233-238 | a record exists exactly when there are messages; it carries id, timestamp and messages, the count except in the parameter-store variant, and the user only where there is a login: the authenticator's user name in ECS, the stored username in the Cognito variants |
| Session.ExportCountMatchesMessages | app_simple.py:185-192 | where the count is kept consistent, the exported count is the number of user messages exported |
| Session.NewChatLeavesNothingToExport | app_cognito_clean.py:268-281 | right after a resetting "New Chat" no download is offered |
| Session.SubmitMakesExportable | app_enhanced.py:322-325 | after a prompt the download is offered under the same session id and holds the prompt |
| Session.LatestCitationsRenderEveryAnswer | app_parameter_store.py:275-280 | after a successful turn the history displays, and every earlier assistant message is shown with the new reply's citations |
| Session.RenderHistory | app_enhanced.py:314-319 | displaying the history raises exactly when some assistant message must be formatted with citations holding a non-S3 reference; otherwise one entry per message, user entries as typed and, in the formatting variants, assistant entries formatted with the latest citations |
| Session.OtherLocationBreaksHistory | app_enhanced.py:360-370 | a reply citing a non-S3 reference is stored with its citations before showing it raises: the turn reports the `KeyError` with the variant's hint, the state is that of a success, and the next display of the history raises again |
| Cognito.AuthenticateClean | app_cognito_clean.py:158-184 | success exactly when the response has an `AuthenticationResult`, with its access token; otherwise "Authentication failed", the `ClientError` code's message, or "Connection error: " followed by the exception text |
| Cognito.ClientErrorMessage | app_cognito_clean.py:175-182 | NotAuthorizedException and UserNotConfirmedException get their own messages, exactly those codes do, and any other code is named after "Authentication error: "; no such message reads like the other failures |
| Cognito.AuthenticateCleanInjective | app_cognito_clean.py:170-184 | different responses give different outcomes: token, code and error text can be read back |
| Cognito.AuthenticatePlain | app_cognito.py:41-56 | the token exactly when the response has an `AuthenticationResult`, `None` on any exception |
| Cognito.AuthenticatePlainAgrees | app_cognito.py:41-56 | the two `authenticate_user` versions accept exactly the same responses, with the same token |
| Cognito.LoginClean | app_cognito_clean.py:220-238 | only the login fields can change; no button changes nothing; a successful Login sets authenticated, username and token; a Login with an empty field only shows the fill-in error; Skip installs the test user and token; the state changes only through a successful Login or Skip, and an error is shown only on a Login that changed nothing |
| Cognito.LoginCleanNeedsBothFields | app_cognito_clean.py:220-233 | with a field empty the authentication answer is never consulted and the state is unchanged |
| Cognito.LoginCleanRejected | app_cognito_clean.py:222-231 | a failed authentication leaves the state and shows "Login failed: " with the outcome's message |
| Cognito.LoginPlain | app_cognito.py:190-198 | only the login fields can change, only on Login with both fields and an authentication result, and then to the logged-in state; an error is shown exactly when that call fails, reading "Authentication failed: " and `str(e)` of the `KeyError`, the `ClientError` or the other exception (lines 54-55) |
| Cognito.CognitoLogoutThenLogin | app_cognito.py:190-234 | logging in again after logout restores login fields but not the dropped history; the count and id survive |
| ParameterStore.GetParameter | config/parameter_store.py:15-35 | the cache only grows, by this name at most; a returned value is cached; not-found returns `None` and errors propagate, both leaving the cache unchanged |
| ParameterStore.CacheHitIgnoresStore | config/parameter_store.py:18-19 | a cached name is answered the same whatever SSM would say |
| ParameterStore.FetchThenHit | config/parameter_store.py:21-27 | a fetched value is served from the cache on later lookups |
| ParameterStore.NotFoundIsRetried | config/parameter_store.py:29-32 | a not-found name is not remembered, so the next lookup can find it |
| ParameterStore.DeriveKeyOfChild | config/parameter_store.py:50 | `<path>/<key>` is keyed as `<key>` |
| ParameterStore.DeriveKeyShape | config/parameter_store.py:50 | a derived key is never longer than the name and never starts with `/` |
| ParameterStore.DeriveKeyWithoutPath | config/parameter_store.py:50 | a name in which the path does not occur only loses its leading slashes |
| ParameterStore.DeriveKeyRemovesInnerOccurrence | config/parameter_store.py:50 | for every name, the path is removed at its first occurrence wherever it is, what precedes it stays in the key, and the rest is treated the same way |
| ParameterStore.KeyedValuesKeys | config/parameter_store.py:48-51 | the result's keys are exactly the derived keys of the fetched parameters |
| ParameterStore.KeyedValuesKeysSound | config/parameter_store.py:48-51 | every key of the result is the derived key of some parameter |
| ParameterStore.KeyedValuesKeysComplete | config/parameter_store.py:48-51 | every parameter's derived key is in the result |
| ParameterStore.KeyedValuesLastWins | config/parameter_store.py:50-51 | on a collision of derived keys the last parameter's value wins |
| ParameterStore.CacheAllHoldsEveryName | config/parameter_store.py:52 | every fetched parameter is cached under its full name, earlier entries stay, and a name never fetched keeps its cached value |
| ParameterStore.CacheAllLastWins | config/parameter_store.py:52 | a name fetched more than once is cached with its last value |
| ParameterStore.GetParametersByPath | config/parameter_store.py:37-58 | the loop caches every parameter by name and keys it by derived key; a paginator error propagates after caching what came before it |
| ParameterStore.StoreAnswerIgnoresEnvironment | config/parameter_store.py:66-76 | when the store returns parameters the environment plays no part |
| ParameterStore.FailedStoreFallsBack | config/parameter_store.py:77-88 | an error or an empty answer falls back to the environment, whatever was fetched |
| ParameterStore.GetAppConfig | config/parameter_store.py:60-88 | each setting comes from its key in the chosen source; absent title, icon and region take 'AI-Powered Assistant', the robot icon and 'us-east-1'; absent agent ids are `None` |
| ParameterStore.StoreAgentIdUsed | config/parameter_store.py:67-71 | a `/bedrock-ai-app/agent-id` parameter of a successful answer becomes the agent id unless a later parameter derives the same key |
| ParameterStore.NoAgentIdNoStart | app_parameter_store.py:15-25 | without an agent id in the chosen source the front-end stops at load time |

## Left out

- Streamlit rendering and control flow: CSS, HTML templates, `display_*`, widgets, spinners, `st.rerun`/`st.stop` (the model returns the state a run leaves behind).
- `invoke_agent` (`services.bedrock_agent_runtime` is not part of this model), Cognito `initiate_auth`, the Secrets Manager `Auth` class and `CognitoAuthenticator` of app-ecs.py, SSM and its pagination: abstract inputs only.
- `get_secret_hash` in app_cognito.py: HMAC-SHA256 (RFC 2104) and Base64 (section 4 of RFC 4648) computed by library calls.
- `json.loads`/`json.dumps` internals: the parse is the abstract `Parsed`; the export is the record, not its JSON text.
- Agent.UnwrapEnvelope: the `result` value is taken as text; a non-string value (a number, an object) stored as message content is not modelled.
- Cognito.AuthenticatePlain: an `AuthenticationResult` without `AccessToken`, or an empty one (falsy in app_cognito.py), is not modelled.
- Cognito.LoginPlain: `str(e)` of a `ClientError` is the parameter `clientErrorText`, because botocore composes it from the service's own message, which the response model does not carry; the "Login successful!" notice of both login forms is not modelled.
- `uuid4` and `datetime`: fresh ids and instants are parameters; that a new id differs from the old one is a hypothesis of `Session.NewChatStartsOver`. The session-duration metric (float minutes) is left out.
- Logging, `load_dotenv`, reading the environment (given as a map), `Config` of app-ecs.py (`config_file` is not part of this model; its agent ids are parameters), and the `boto3` client construction in `ParameterStoreConfig.__init__`, which runs outside the `try` of `get_app_config`.
- The ECS logout models the button's callback only (`logout_clicked`, `auth_status`); `authenticator.logout()` and the rerun that clears `logout_clicked` are not modelled.
- Citations.SubstituteMarkersRendersPieces: Python's `\d` also matches non-ASCII decimal digits; markers are restricted to ASCII digits, and the piece characterisation covers text whose plain characters are not `%`.
- Citations.FormatCitations: a retrieved reference is an S3 location or "another location"; a reference or citation missing the `location`, `retrievedReferences` or `uri` key altogether (other `KeyError`s with other texts) is not modelled.
- The commented-out trace and citation sidebars of app_enhanced.py.
- A prompt is modelled as text; `st.chat_input` returning `None` is the empty prompt (no effect).

=== FILE: agent.dfy ===
/**
 * What the front-ends do with one agent invocation: the abstract reply, the best-effort JSON
 * envelope unwrap, the blank-output fallback and the error-hint classifier of the ECS front-end.
 */
module Agent {
  import opened Wrappers
  import opened Text
  import opened Citations

  /** The agent's diagnostic record; opaque to the front-ends, which only store it. */
  type Trace = map<string, string>

  /** A successful `invoke_agent` response. */
  datatype Reply = Reply(outputText: string, citations: seq<Citation>, trace: Trace)

  /** `invoke_agent` either answers or raises; a raised exception is known by its `str(e)`. */
  type Invocation = Result<Reply, string>

  /**
   * What `json.loads(text, strict=False)` gives, as far as the `in` tests that follow can tell:
   * a decode error, an object (values in their text form), a string (`in` tests substrings),
   * an array (`in` tests membership; its string elements are listed) or a scalar of the named
   * Python type (`in` raises a TypeError).
   */
  datatype Parsed =
    | Malformed
    | JsonObject(fields: map<string, string>)
    | JsonString(s: string)
    | JsonArray(strings: set<string>)
    | JsonScalar(pyType: string)

  const InstructionKey: string := "instruction"
  const ResultKey: string := "result"

  /** The fixed reply the ECS front-end substitutes for a blank agent answer. */
  const Apology: string := "I apologize, but I couldn't generate a response. Please try rephrasing your question."

  /** The fixed assistant message the ECS front-end stores when the invocation fails. */
  const FailureReply: string :=
    "I'm currently unable to process your request due to a technical issue. Please try again later or contact support."

  /** Python's `not text or text.strip() == ""`. */
  predicate IsBlank(text: string) {
    |text| == 0 || Strip(text, Whitespace) == ""
  }

  /** A blank answer is one made only of whitespace. */
  lemma IsBlankIff(text: string)
    ensures IsBlank(text) <==> forall i :: 0 <= i < |text| ==> text[i] in Whitespace
  {
    StripEmptyIff(text, Whitespace);
  }

  /** A decoded object holding both `instruction` and `result`. */
  predicate IsEnvelope(parsed: Parsed) {
    parsed.JsonObject? && InstructionKey in parsed.fields && ResultKey in parsed.fields
  }

  /**
   * The envelope step: `if "instruction" in j and "result" in j: text = j["result"]`, with the
   * decode error swallowed. Indexing a string or a list with "result", and `in` on a scalar,
   * raise a TypeError, which is not swallowed: it comes back as a Failure carrying its message.
   */
  function UnwrapEnvelope(text: string, parsed: Parsed): (r: Result<string, string>)
    ensures r.Success? ==> r.value == (if IsEnvelope(parsed) then parsed.fields[ResultKey] else text)
    ensures parsed.Malformed? ==> r == Success(text)
    ensures parsed.JsonObject? ==>
      r.Success? && (r.value == if InstructionKey in parsed.fields && ResultKey in parsed.fields
                                then parsed.fields[ResultKey] else text)
    ensures r.Failure? <==>
      || parsed.JsonScalar?
      || (parsed.JsonString? && Contains(parsed.s, InstructionKey) && Contains(parsed.s, ResultKey))
      || (parsed.JsonArray? && InstructionKey in parsed.strings && ResultKey in parsed.strings)
  {
    match parsed
    case Malformed => Success(text)
    case JsonObject(fields) =>
      if InstructionKey in fields && ResultKey in fields then Success(fields[ResultKey]) else Success(text)
    case JsonString(s) =>
      if Contains(s, InstructionKey) && Contains(s, ResultKey)
      then Failure("string indices must be integers, not 'str'")
      else Success(text)
    case JsonArray(strings) =>
      if InstructionKey in strings && ResultKey in strings
      then Failure("list indices must be integers or slices, not str")
      else Success(text)
    case JsonScalar(ty) => Failure("argument of type '" + ty + "' is not iterable")
  }

  /**
   * The text the front-ends store from a reply: in ECS a blank answer is first replaced by the
   * apology; then the JSON envelope, if any, is unwrapped. `loads` stands for `json.loads`.
   */
  function NormalizeReply(fallbackOnBlank: bool, outputText: string, loads: string -> Parsed): (r: Result<string, string>)
    // an answer that is not an envelope is stored as it came, unless ECS replaced it for being blank
    ensures r.Success? && !IsEnvelope(loads(outputText)) && !(fallbackOnBlank && IsBlank(outputText)) ==> r.value == outputText
    // with the fallback on, a blank text is stored only when it was an envelope's `result`
    ensures fallbackOnBlank && r.Success? && IsBlank(r.value) ==> IsEnvelope(loads(outputText)) || IsEnvelope(loads(Apology))
  {
    ApologyNotBlank();
    var text := if fallbackOnBlank && IsBlank(outputText) then Apology else outputText;
    UnwrapEnvelope(text, loads(text))
  }

  lemma ApologyNotBlank()
    ensures !IsBlank(Apology)
  {
    assert Apology[|Apology| - 1] == '.' && '.' !in Whitespace;
    StripEmptyIff(Apology, Whitespace);
  }

  /** An envelope `{"instruction": .., "result": R}` yields R, whatever else the object holds. */
  lemma EnvelopeYieldsResult(fallbackOnBlank: bool, outputText: string, loads: string -> Parsed, fields: map<string, string>)
    requires !IsBlank(outputText) || !fallbackOnBlank
    requires loads(outputText) == JsonObject(fields)
    requires InstructionKey in fields && ResultKey in fields
    ensures NormalizeReply(fallbackOnBlank, outputText, loads) == Success(fields[ResultKey])
  {
  }

  /** Text that is not JSON, or JSON without the two keys, is kept verbatim. */
  lemma PlainTextKept(fallbackOnBlank: bool, outputText: string, loads: string -> Parsed)
    requires !IsBlank(outputText) || !fallbackOnBlank
    requires loads(outputText).Malformed?
          || (loads(outputText).JsonObject? && !(InstructionKey in loads(outputText).fields && ResultKey in loads(outputText).fields))
    ensures NormalizeReply(fallbackOnBlank, outputText, loads) == Success(outputText)
  {
  }

  /**
   * With the fallback on, a blank answer becomes the apology, which then passes the envelope step
   * unchanged because `json.loads` rejects it (it is prose, not JSON).
   */
  lemma BlankBecomesApology(outputText: string, loads: string -> Parsed)
    requires IsBlank(outputText)
    requires loads(Apology).Malformed?
    ensures NormalizeReply(true, outputText, loads) == Success(Apology)
  {
  }

  /** Without the fallback a blank answer goes through as it is (`json.loads("")` fails to decode). */
  lemma BlankKeptWithoutFallback(outputText: string, loads: string -> Parsed)
    requires loads(outputText).Malformed?
    ensures NormalizeReply(false, outputText, loads) == Success(outputText)
  {
  }

  /*
   * Error hints shown under an agent error.
   */

  /**
   * The four hints of the ECS classifier (IAM permissions, agent ids, deployment/alias, AWS
   * configuration and network), and the fixed "check your connection and try again" line that
   * the enhanced, simple and both Cognito front-ends show whatever the error.
   */
  datatype Hint = CheckPermissions | VerifyAgentIds | CheckDeployment | CheckConnectivity | RetryConnection

  /** The substrings tested, in the order they are tested, with the hint each selects. */
  const HintPatterns: seq<(string, Hint)> :=
    [("AccessDenied", CheckPermissions), ("ResourceNotFound", VerifyAgentIds), ("ValidationException", CheckDeployment)]

  /** The ECS front-end's if/elif chain on `str(e)`. */
  function ErrorHint(message: string): (r: Hint)
    ensures r != RetryConnection
    ensures r == CheckPermissions <==> Contains(message, "AccessDenied")
    ensures r == CheckConnectivity ==>
      !Contains(message, "AccessDenied") && !Contains(message, "ResourceNotFound") && !Contains(message, "ValidationException")
  {
    if Contains(message, "AccessDenied") then CheckPermissions
    else if Contains(message, "ResourceNotFound") then VerifyAgentIds
    else if Contains(message, "ValidationException") then CheckDeployment
    else CheckConnectivity
  }

  /**
   * The classifier picks the hint of the FIRST pattern in priority order that occurs in the
   * message, and the generic hint exactly when none occurs.
   */
  lemma ErrorHintFirstMatch(message: string)
    ensures ErrorHint(message) == CheckConnectivity
        <==> forall k :: 0 <= k < |HintPatterns| ==> !Contains(message, HintPatterns[k].0)
    ensures forall k :: 0 <= k < |HintPatterns| && Contains(message, HintPatterns[k].0)
                     && (forall j :: 0 <= j < k ==> !Contains(message, HintPatterns[j].0))
                     ==> ErrorHint(message) == HintPatterns[k].1
  {
    assert HintPatterns[0] == ("AccessDenied", CheckPermissions);
    assert HintPatterns[1] == ("ResourceNotFound", VerifyAgentIds);
    assert HintPatterns[2] == ("ValidationException", CheckDeployment);
  }
}

=== FILE: citations.dfy ===
/**
 * Citation rendering of the parameter-store and "enhanced" front-ends (`format_citations`):
 * inline `%[<digits>]%` markers become superscripts, and a numbered list of the sources of every
 * citation of the latest response is appended.
 */
module Citations {
  import opened Wrappers
  import opened Text

  /** Where a retrieved reference points: an S3 object, or a location of another type (web, Confluence, ...). */
  datatype Location = S3Location(uri: string) | OtherLocation(locationType: string)

  /** One retrieved reference; only `location.s3Location.uri` is ever read. */
  datatype Reference = Reference(location: Location)

  /** A citation of the agent's response: the span it supports and the references behind it. */
  datatype Citation = Citation(generatedResponsePart: string, retrievedReferences: seq<Reference>)

  /*
   * Inline markers: the regular expression `%\[(\d+)\]%`, restricted to ASCII digits.
   */

  /** Length of the run of ASCII digits at the start of `s`. */
  function DigitRun(s: string): (n: nat)
    ensures n <= |s| && AllAsciiDigits(s[..n])
    ensures n < |s| ==> !IsAsciiDigit(s[n])
    decreases |s|
  {
    if |s| > 0 && IsAsciiDigit(s[0]) then 1 + DigitRun(s[1..]) else 0
  }

  /** Number of digits of the marker `%[<digits>]%` that starts `t`, if one does. */
  function MarkerAt(t: string): (r: Option<nat>)
    ensures r.Some? ==> r.value > 0 && r.value + 4 <= |t| && t[..2] == "%[" && t[r.value + 2..r.value + 4] == "]%"
    ensures r.Some? ==> AllAsciiDigits(t[2..r.value + 2])
  {
    if |t| >= 2 && t[0] == '%' && t[1] == '[' then
      var n := DigitRun(t[2..]);
      assert t[2..][..n] == t[2..n + 2];
      if n > 0 && n + 4 <= |t| && t[n + 2] == ']' && t[n + 3] == '%' then Some(n) else None
    else None
  }

  /** The replacement `<sup>[\1]</sup>` for a marker with the given digits. */
  function Superscript(digits: string): string {
    "<sup>[" + digits + "]</sup>"
  }

  /** Python's `re.sub(r"%\[(\d+)\]%", r"<sup>[\1]</sup>", t)`: a left-to-right scan replacing non-overlapping markers. */
  function SubstituteMarkers(t: string): (r: string)
    ensures |r| >= |t|
    decreases |t|
  {
    if |t| == 0 then ""
    else match MarkerAt(t)
      case Some(n) => Superscript(t[2..n + 2]) + SubstituteMarkers(t[n + 4..])
      case None => [t[0]] + SubstituteMarkers(t[1..])
  }

  /*
   * A reference reading of the substitution: text assembled from plain characters and markers.
   */

  /** One piece of assistant text: a character that cannot open a marker, or a marker with its digits. */
  datatype Piece = Plain(c: char) | Marker(digits: string)

  ghost predicate ValidPiece(p: Piece) {
    match p
    case Plain(c) => c != '%'
    case Marker(d) => |d| > 0 && AllAsciiDigits(d)
  }

  /** The text the pieces spell. */
  function Raw(ps: seq<Piece>): string {
    if |ps| == 0 then ""
    else (match ps[0] case Plain(c) => [c] case Marker(d) => "%[" + d + "]%") + Raw(ps[1..])
  }

  /** The same text with every marker shown as a superscript of its own digits. */
  function Rendered(ps: seq<Piece>): string {
    if |ps| == 0 then ""
    else (match ps[0] case Plain(c) => [c] case Marker(d) => Superscript(d)) + Rendered(ps[1..])
  }

  lemma MarkerAtMarker(d: string, rest: string)
    requires |d| > 0 && AllAsciiDigits(d)
    ensures MarkerAt("%[" + d + "]%" + rest) == Some(|d|)
  {
    var t := "%[" + d + "]%" + rest;
    assert t[2..] == d + ("]%" + rest);
    DigitRunPrefix(d, "]%" + rest);
    assert t[0] == '%' && t[1] == '[';
    assert t[|d| + 2] == ']' && t[|d| + 3] == '%';
  }

  lemma {:induction false} DigitRunPrefix(d: string, rest: string)
    requires AllAsciiDigits(d)
    requires |rest| > 0 && !IsAsciiDigit(rest[0])
    ensures DigitRun(d + rest) == |d|
    decreases |d|
  {
    if |d| > 0 {
      assert (d + rest)[1..] == d[1..] + rest;
      DigitRunPrefix(d[1..], rest);
    } else {
      assert d + rest == rest;
    }
  }

  /**
   * Every marker is replaced by a superscript carrying the same digits and every other character is
   * kept, in order: substitution turns the raw text of the pieces into their rendered text.
   */
  lemma {:induction false} SubstituteMarkersRendersPieces(ps: seq<Piece>)
    requires forall i :: 0 <= i < |ps| ==> ValidPiece(ps[i])
    ensures SubstituteMarkers(Raw(ps)) == Rendered(ps)
  {
    if |ps| > 0 {
      var rest := Raw(ps[1..]);
      SubstituteMarkersRendersPieces(ps[1..]);
      match ps[0]
      case Plain(c) =>
        SubstitutePlainPrefix([c], rest);
      case Marker(d) =>
        SubstituteMarkerFirst(d, rest);
    }
  }

  /** Text without a `%` has no marker to rewrite. */
  lemma {:induction false} SubstituteMarkersNoPercent(t: string)
    requires forall i :: 0 <= i < |t| ==> t[i] != '%'
    ensures SubstituteMarkers(t) == t
    decreases |t|
  {
    if |t| > 0 {
      SubstituteMarkersNoPercent(t[1..]);
    }
  }

  /*
   * The sources block.
   */

  const SourcesHeader: string :=
    "<div style='margin-top: 1rem; padding-top: 1rem; border-top: 1px solid #e1e8ed;'>" + "<h4>\U{1F4DA} Sources:</h4>"

  const SourcesFooter: string := "</div>"

  /** The badge for source number `n`, whitespace included as the source's f-string writes it. */
  function SourceEntry(n: nat, uri: string): string {
    "\n                <div class=\"citation-badge\">\n                    ["
    + NatToDecimal(n) + "] " + uri
    + "\n                </div>\n                "
  }

  /** The locations of all retrieved references, citation by citation, reference by reference. */
  function FlattenReferences(cs: seq<Citation>): seq<Location> {
    if |cs| == 0 then []
    else LocationsOf(cs[0].retrievedReferences) + FlattenReferences(cs[1..])
  }

  function LocationsOf(refs: seq<Reference>): (r: seq<Location>)
    ensures |r| == |refs| && forall i :: 0 <= i < |refs| ==> r[i] == refs[i].location
  {
    if |refs| == 0 then [] else [refs[0].location] + LocationsOf(refs[1..])
  }

  /** Every location is an S3 one, so `['s3Location']` finds its key each time. */
  predicate AllS3(ls: seq<Location>) {
    forall i :: 0 <= i < |ls| ==> ls[i].S3Location?
  }

  /** The URIs of S3 locations. */
  function Uris(ls: seq<Location>): (r: seq<string>)
    requires AllS3(ls)
    ensures |r| == |ls| && forall i :: 0 <= i < |ls| ==> r[i] == ls[i].uri
  {
    seq(|ls|, i requires 0 <= i < |ls| => ls[i].uri)
  }

  /** `str(e)` of the `KeyError` that `retrieved_ref['location']['s3Location']` raises for another location type. */
  const MissingS3Location: string := "'s3Location'"

  /** Total number of retrieved references over all citations. */
  function ReferenceCount(cs: seq<Citation>): nat {
    if |cs| == 0 then 0 else |cs[0].retrievedReferences| + ReferenceCount(cs[1..])
  }

  /** The badges for `uris`, the first numbered `first` and each next one numbered one more. */
  function SourceEntries(uris: seq<string>, first: nat): string
    decreases |uris|
  {
    if |uris| == 0 then "" else SourceEntry(first, uris[0]) + SourceEntries(uris[1..], first + 1)
  }

  function Concat(parts: seq<string>): string {
    if |parts| == 0 then "" else parts[0] + Concat(parts[1..])
  }

  /**
   * Python's `format_citations(text, citations)`. A reference whose location is not an S3 one
   * raises the `KeyError`; the text never decides whether it fails.
   */
  function FormatCitations(text: string, cs: seq<Citation>): (r: Result<string, string>)
    ensures |cs| == 0 ==> r == Success(text)
    ensures r.Failure? <==> |cs| > 0 && exists i :: 0 <= i < |FlattenReferences(cs)| && FlattenReferences(cs)[i].OtherLocation?
    ensures r.Failure? ==> r.error == MissingS3Location
  {
    if |cs| == 0 then Success(text)
    else
      var ls := FlattenReferences(cs);
      if AllS3(ls) then Success(SubstituteMarkers(text) + SourcesHeader + SourceEntries(Uris(ls), 1) + SourcesFooter)
      else Failure(MissingS3Location)
  }

  /*
   * Properties of the formatting.
   */

  /** Without citations the text is shown as it is: markers are not rewritten either. */
  lemma FormatWithoutCitations(text: string)
    ensures FormatCitations(text, []) == Success(text)
  {
  }

  /** With citations the substituted text comes first, followed by the sources block and nothing else. */
  lemma FormatWithCitations(text: string, cs: seq<Citation>)
    requires |cs| > 0 && AllS3(FlattenReferences(cs))
    ensures var r := FormatCitations(text, cs);
      var sub := SubstituteMarkers(text);
      && r.Success? && |sub| <= |r.value| && r.value[..|sub|] == sub
      && r.value[|sub|..] == SourcesHeader + Concat(Entries(Uris(FlattenReferences(cs)), 1)) + SourcesFooter
  {
    var uris := Uris(FlattenReferences(cs));
    var r := FormatCitations(text, cs).value;
    var sub := SubstituteMarkers(text);
    SourceEntriesNumbering(uris, 1);
    assert r == sub + (SourcesHeader + SourceEntries(uris, 1) + SourcesFooter);
  }

  /** The running counter of the nested loop numbers the badges consecutively from `first`. */
  lemma {:induction false} SourceEntriesNumbering(uris: seq<string>, first: nat)
    ensures SourceEntries(uris, first) == Concat(Entries(uris, first))
    decreases |uris|
  {
    if |uris| > 0 {
      SourceEntriesNumbering(uris[1..], first + 1);
      assert Entries(uris, first)[1..] == Entries(uris[1..], first + 1);
    }
  }

  /** Badges for `uris` numbered from `first`, as a list. */
  function Entries(uris: seq<string>, first: nat): (r: seq<string>)
    ensures |r| == |uris|
    ensures forall i :: 0 <= i < |uris| ==> r[i] == SourceEntry(first + i, uris[i])
  {
    seq(|uris|, i requires 0 <= i < |uris| => SourceEntry(first + i, uris[i]))
  }

  /** The list is as long as the total number of references: N counts every reference of every citation. */
  lemma {:induction false} FlattenReferencesCount(cs: seq<Citation>)
    ensures |FlattenReferences(cs)| == ReferenceCount(cs)
  {
    if |cs| > 0 {
      FlattenReferencesCount(cs[1..]);
    }
  }

  /** Flattening keeps citation order: the references of earlier citations come first. */
  lemma {:induction false} FlattenReferencesAppend(a: seq<Citation>, b: seq<Citation>)
    ensures FlattenReferences(a + b) == FlattenReferences(a) + FlattenReferences(b)
  {
    if |a| > 0 {
      assert (a + b)[1..] == a[1..] + b;
      FlattenReferencesAppend(a[1..], b);
    } else {
      assert a + b == b;
    }
  }

  /** A prefix without `%` is copied through and cannot swallow a marker that follows it. */
  lemma {:induction false} SubstitutePlainPrefix(a: string, rest: string)
    requires forall i :: 0 <= i < |a| ==> a[i] != '%'
    ensures SubstituteMarkers(a + rest) == a + SubstituteMarkers(rest)
    decreases |a|
  {
    if |a| > 0 {
      assert (a + rest)[1..] == a[1..] + rest;
      SubstitutePlainPrefix(a[1..], rest);
    } else {
      assert a + rest == rest;
    }
  }

  /** A marker at the front is replaced by the superscript of its own digits. */
  lemma SubstituteMarkerFirst(d: string, rest: string)
    requires |d| > 0 && AllAsciiDigits(d)
    ensures SubstituteMarkers("%[" + d + "]%" + rest) == Superscript(d) + SubstituteMarkers(rest)
  {
    var t := "%[" + d + "]%" + rest;
    MarkerAtMarker(d, rest);
    assert t[2..|d| + 2] == d;
    assert t[|d| + 4..] == rest;
  }

  /**
   * One marker and one citation with one reference give one superscript with the marker's digits
   * and exactly one badge, numbered 1 (for example "Cost is %[1]% per month").
   */
  lemma FormatOneMarkerOneReference(a: string, d: string, b: string, part: string, uri: string)
    requires forall i :: 0 <= i < |a| ==> a[i] != '%'
    requires forall i :: 0 <= i < |b| ==> b[i] != '%'
    requires |d| > 0 && AllAsciiDigits(d)
    ensures FormatCitations(a + ("%[" + d + "]%" + b), [Citation(part, [Reference(S3Location(uri))])])
         == Success(a + (Superscript(d) + b) + SourcesHeader + SourceEntry(1, uri) + SourcesFooter)
  {
    var cs := [Citation(part, [Reference(S3Location(uri))])];
    SubstituteOneMarker(a, d, b);
    assert FlattenReferences(cs) == [S3Location(uri)] by {
      assert cs[1..] == [];
    }
    assert Uris([S3Location(uri)]) == [uri];
    assert SourceEntries([uri], 1) == SourceEntry(1, uri) by {
      assert [uri][1..] == [];
    }
  }

  /** A single marker between two stretches of plain text. */
  lemma SubstituteOneMarker(a: string, d: string, b: string)
    requires forall i :: 0 <= i < |a| ==> a[i] != '%'
    requires forall i :: 0 <= i < |b| ==> b[i] != '%'
    requires |d| > 0 && AllAsciiDigits(d)
    ensures SubstituteMarkers(a + ("%[" + d + "]%" + b)) == a + (Superscript(d) + b)
  {
    SubstitutePlainPrefix(a, "%[" + d + "]%" + b);
    SubstituteMarkerFirst(d, b);
    SubstituteMarkersNoPercent(b);
  }
}

=== FILE: cognito.dfy ===
/**
 * The two Cognito front-ends: `authenticate_user` (an `initiate_auth` call with the
 * USER_PASSWORD_AUTH flow) and the login forms that move the session into the logged-in state.
 */
module Cognito {
  import opened Wrappers
  import opened Session

  /**
   * What `initiate_auth` did: answered with an `AuthenticationResult` (of which only the access
   * token is read), answered without one, raised a `ClientError` with an error code, or raised
   * something else (known by its `str(e)`).
   */
  datatype AuthResponse =
    | AuthenticationResult(accessToken: string)
    | NoAuthenticationResult
    | ClientError(code: string)
    | OtherError(message: string)

  /** The `(success, token_or_message)` pair of app_cognito_clean.py. */
  datatype AuthOutcome = Authenticated(token: string) | Rejected(message: string)

  const AuthErrorPrefix: string := "Authentication error: "
  const ConnectionErrorPrefix: string := "Connection error: "

  /**
   * The message for a `ClientError` code: the two known codes get their own wording, every other
   * code is named in the message; none reads like the other failures.
   */
  function ClientErrorMessage(code: string): (r: string)
    ensures code == "NotAuthorizedException" <==> r == "Invalid username or password"
    ensures code == "UserNotConfirmedException" <==> r == "User account not confirmed"
    ensures code != "NotAuthorizedException" && code != "UserNotConfirmedException" ==>
      |AuthErrorPrefix| <= |r| && r[..|AuthErrorPrefix|] == AuthErrorPrefix && r[|AuthErrorPrefix|..] == code
    ensures r != "Authentication failed"
    ensures |r| > 0 && r[0] != ConnectionErrorPrefix[0]
  {
    if code == "NotAuthorizedException" then "Invalid username or password"
    else if code == "UserNotConfirmedException" then "User account not confirmed"
    else
      var m := AuthErrorPrefix + code;
      assert m[0] == 'A';
      m
  }

  /** app_cognito_clean.py's `authenticate_user`. */
  function AuthenticateClean(resp: AuthResponse): (r: AuthOutcome)
    ensures r.Authenticated? <==> resp.AuthenticationResult?
    ensures r.Authenticated? ==> r.token == resp.accessToken
    ensures resp.NoAuthenticationResult? ==> r == Rejected("Authentication failed")
    ensures resp.ClientError? ==> r == Rejected(ClientErrorMessage(resp.code))
    // any other exception: "Connection error: " followed by `str(e)`
    ensures resp.OtherError? ==>
      && r.Rejected? && |ConnectionErrorPrefix| <= |r.message|
      && r.message[..|ConnectionErrorPrefix|] == ConnectionErrorPrefix && r.message[|ConnectionErrorPrefix|..] == resp.message
  {
    match resp
    case AuthenticationResult(token) => Authenticated(token)
    case NoAuthenticationResult => Rejected("Authentication failed")
    case ClientError(code) => Rejected(ClientErrorMessage(code))
    case OtherError(m) => Rejected(ConnectionErrorPrefix + m)
  }

  /**
   * The outcome tells every response apart: the token comes back on success, and each failure has
   * its own message, from which the code or error text can be read back.
   */
  lemma AuthenticateCleanInjective(a: AuthResponse, b: AuthResponse)
    requires AuthenticateClean(a) == AuthenticateClean(b)
    ensures a == b
  {
    if a.ClientError? && b.ClientError? {
      if a.code != "NotAuthorizedException" && a.code != "UserNotConfirmedException" {
        assert a.code == AuthenticateClean(a).message[|AuthErrorPrefix|..];
      }
    }
    if a.OtherError? {
      var m := AuthenticateClean(a).message;
      assert m[0] == m[..|ConnectionErrorPrefix|][0] == ConnectionErrorPrefix[0];
    }
    if b.OtherError? {
      var m := AuthenticateClean(b).message;
      assert m[0] == m[..|ConnectionErrorPrefix|][0] == ConnectionErrorPrefix[0];
    }
  }

  /** app_cognito.py's `authenticate_user`: the result on success, `None` on any exception (a missing key included). */
  function AuthenticatePlain(resp: AuthResponse): (r: Option<string>)
    ensures r.Some? <==> resp.AuthenticationResult?
    ensures r.Some? ==> r.value == resp.accessToken
  {
    match resp
    case AuthenticationResult(token) => Some(token)
    case _ => None
  }

  /** Both versions accept exactly the same responses, with the same token. */
  lemma AuthenticatePlainAgrees(resp: AuthResponse)
    ensures AuthenticatePlain(resp).Some? <==> AuthenticateClean(resp).Authenticated?
    ensures AuthenticatePlain(resp).Some? ==> AuthenticatePlain(resp).value == AuthenticateClean(resp).token
  {
  }

  /** Which submit button of the login form was pressed on this run, if any. */
  datatype FormAction = NoAction | LoginPressed | SkipPressed

  /** The form's effect: the new state and the error it shows, if any. */
  datatype LoginStep = LoginStep(store: Store, error: Option<string>)

  /** The user name and token the "Skip Auth" button installs. */
  const TestUser: string := "test_user"
  const TestToken: string := "test_token"

  /** `r` differs from `st` at most in the login fields `authenticated`, `username` and `access_token`. */
  predicate OnlyLoginChanged(st: Store, r: Store) {
    r == st.(authenticated := r.authenticated, username := r.username, accessToken := r.accessToken)
  }

  function LoggedIn(st: Store, username: string, token: string): Store {
    st.(authenticated := Set(true), username := Set(Some(username)), accessToken := Set(Some(token)))
  }

  /**
   * app_cognito_clean.py's `cognito_login` form. `resp` is what `initiate_auth` would answer; it
   * is consulted only when Login is pressed with both fields filled in.
   */
  function LoginClean(st: Store, username: string, password: string, action: FormAction, resp: AuthResponse): (r: LoginStep)
    ensures OnlyLoginChanged(st, r.store)
    ensures action == NoAction ==> r == LoginStep(st, None)
    ensures action == LoginPressed && username != "" && password != "" && resp.AuthenticationResult? ==>
      r == LoginStep(LoggedIn(st, username, resp.accessToken), None)
    ensures action == LoginPressed && (username == "" || password == "") ==>
      r == LoginStep(st, Some("Please enter both username and password"))
    ensures action == SkipPressed ==> r == LoginStep(LoggedIn(st, TestUser, TestToken), None)
    // the state changes only by logging in, and an error is shown only on a Login that changed nothing
    ensures r.store != st ==>
      && r.store.authenticated == Set(true)
      && (action == SkipPressed || (action == LoginPressed && username != "" && password != "" && resp.AuthenticationResult?))
    ensures r.error.Some? ==> action == LoginPressed && r.store == st
  {
    match action
    case NoAction => LoginStep(st, None)
    case SkipPressed => LoginStep(LoggedIn(st, TestUser, TestToken), None)
    case LoginPressed =>
      if username != "" && password != "" then
        match AuthenticateClean(resp)
        case Authenticated(token) => LoginStep(LoggedIn(st, username, token), None)
        case Rejected(message) => LoginStep(st, Some("Login failed: " + message))
      else LoginStep(st, Some("Please enter both username and password"))
  }

  /** Authentication is attempted only with both fields filled in: otherwise the answer does not matter and nothing changes. */
  lemma LoginCleanNeedsBothFields(st: Store, username: string, password: string, action: FormAction, a: AuthResponse, b: AuthResponse)
    requires username == "" || password == ""
    requires action != SkipPressed
    ensures LoginClean(st, username, password, action, a) == LoginClean(st, username, password, action, b)
    ensures LoginClean(st, username, password, action, a).store == st
  {
  }

  /** A failed authentication leaves the state alone and shows the outcome's message. */
  lemma LoginCleanRejected(st: Store, username: string, password: string, resp: AuthResponse)
    requires username != "" && password != "" && !resp.AuthenticationResult?
    ensures LoginClean(st, username, password, LoginPressed, resp)
         == LoginStep(st, Some("Login failed: " + AuthenticateClean(resp).message))
  {
  }

  /** The prefix of the error app_cognito.py's `authenticate_user` shows for any exception it catches. */
  const AuthFailedPrefix: string := "Authentication failed: "

  /** `str(e)` of the `KeyError` a response without `AuthenticationResult` raises. */
  const MissingResultKey: string := "'AuthenticationResult'"

  /** What app_cognito.py's `authenticate_user` shows when it returns `None`. */
  function PlainFailureMessage(resp: AuthResponse, clientErrorText: string): string
    requires !resp.AuthenticationResult?
  {
    match resp
    case NoAuthenticationResult => AuthFailedPrefix + MissingResultKey
    case ClientError(_) => AuthFailedPrefix + clientErrorText
    case OtherError(m) => AuthFailedPrefix + m
  }

  /**
   * app_cognito.py's `display_login_form` with the error `authenticate_user` shows. `clientErrorText`
   * is `str(e)` of a `ClientError`, which botocore builds from the code and the service's message.
   */
  function LoginPlain(st: Store, username: string, password: string, pressed: bool, resp: AuthResponse,
                      clientErrorText: string): (r: LoginStep)
    ensures OnlyLoginChanged(st, r.store)
    ensures r.store != st ==> pressed && username != "" && password != "" && resp.AuthenticationResult?
    ensures pressed && username != "" && password != "" && resp.AuthenticationResult? ==>
      r == LoginStep(LoggedIn(st, username, resp.accessToken), None)
    // an error is shown exactly when the authentication call is made and fails, and then nothing changes
    ensures r.error.Some? <==> pressed && username != "" && password != "" && !resp.AuthenticationResult?
    ensures r.error.Some? ==> r.store == st
    ensures pressed && username != "" && password != "" ==>
      && (resp.NoAuthenticationResult? ==> r.error == Some(AuthFailedPrefix + MissingResultKey))
      && (resp.ClientError? ==> r.error == Some(AuthFailedPrefix + clientErrorText))
      && (resp.OtherError? ==> r.error == Some(AuthFailedPrefix + resp.message))
  {
    if pressed && username != "" && password != "" then
      match AuthenticatePlain(resp)
      case Some(token) => LoginStep(LoggedIn(st, username, token), None)
      case None => LoginStep(st, Some(PlainFailureMessage(resp, clientErrorText)))
    else LoginStep(st, None)
  }

  /** Logging in after a logout restores the login fields but not the history app_cognito.py's logout dropped. */
  lemma CognitoLogoutThenLogin(st: Store, username: string, password: string, token: string)
    requires Initialised(AppCognito, st) && username != "" && password != ""
    ensures var r := LoginPlain(Logout(AppCognito, st), username, password, true, AuthenticationResult(token), "").store;
      && r.authenticated == Set(true) && r.username == Set(Some(username)) && r.accessToken == Set(Some(token))
      && r.messages == Set([]) && r.messageCount == st.messageCount && r.sessionId == st.sessionId
  {
  }
}

=== FILE: parameter_store.dfy ===
/**
 * config/parameter_store.py: a cache in front of SSM Parameter Store, the path query that turns
 * parameter names into configuration keys, and `get_app_config`'s choice between the store and
 * the environment.
 */
module ParameterStore {
  import opened Wrappers
  import opened Text

  /** `self._cache`: parameter name to value. */
  type Cache = map<string, string>

  /** What SSM's `get_parameter` does for one name: a value, `ParameterNotFound`, or another error. */
  datatype SsmAnswer = Found(value: string) | ParameterNotFound | Raised(error: string)

  /** A call's result and the cache afterwards. A `Failure` is an exception that propagates. */
  datatype Lookup = Lookup(result: Result<Option<string>, string>, cache: Cache)

  /** `ParameterStoreConfig.get_parameter`; `answer` is what SSM would say if it were asked. */
  function GetParameter(cache: Cache, name: string, answer: SsmAnswer): (r: Lookup)
    // nothing cached is ever evicted or changed, and at most this name is added
    ensures forall n :: n in cache ==> n in r.cache && r.cache[n] == cache[n]
    ensures r.cache.Keys <= cache.Keys + {name}
    // a value returned is the cached value of the name afterwards
    ensures r.result.Success? && r.result.value.Some? ==> name in r.cache && r.cache[name] == r.result.value.value
    // "not found" and errors leave the cache alone; errors are SSM's own
    ensures r.result == Success(None) <==> name !in cache && answer.ParameterNotFound?
    ensures r.result.Failure? <==> name !in cache && answer.Raised?
    ensures r.result == Success(None) ==> r.cache == cache
    ensures r.result.Failure? ==> r.result.error == answer.error && r.cache == cache
    ensures name !in cache && answer.Found? ==> r.result == Success(Some(answer.value))
  {
    if name in cache then Lookup(Success(Some(cache[name])), cache)
    else match answer
      case Found(v) => Lookup(Success(Some(v)), cache[name := v])
      case ParameterNotFound => Lookup(Success(None), cache)
      case Raised(e) => Lookup(Failure(e), cache)
  }

  /** A cached name is answered without asking SSM: whatever SSM would say makes no difference. */
  lemma CacheHitIgnoresStore(cache: Cache, name: string, a: SsmAnswer, b: SsmAnswer)
    requires name in cache
    ensures GetParameter(cache, name, a) == GetParameter(cache, name, b)
  {
  }

  /** Once fetched, a value is served from the cache on every later lookup. */
  lemma FetchThenHit(cache: Cache, name: string, v: string, later: SsmAnswer)
    requires name !in cache
    ensures var first := GetParameter(cache, name, Found(v));
      GetParameter(first.cache, name, later) == Lookup(Success(Some(v)), first.cache)
  {
  }

  /** A missing parameter is not remembered: the next lookup asks SSM again and can find it. */
  lemma NotFoundIsRetried(cache: Cache, name: string, v: string)
    requires name !in cache
    ensures var first := GetParameter(cache, name, ParameterNotFound);
      first.result == Success(None) && GetParameter(first.cache, name, Found(v)).result == Success(Some(v))
  {
  }

  /*
   * The path query.
   */

  /** One parameter of a `get_parameters_by_path` page. */
  datatype Parameter = Parameter(name: string, value: string)

  /**
   * What the paginator produced: the parameters of all pages in order, and the error it raised
   * after them, if it raised one.
   */
  datatype PathAnswer = PathAnswer(parameters: seq<Parameter>, error: Option<string>)

  /** `param['Name'].replace(path, '').lstrip('/')`. */
  function DeriveKey(name: string, path: string): string {
    LStrip(RemoveAll(name, path), {'/'})
  }

  /** A derived key is never longer than the name and never starts with `/`. */
  lemma DeriveKeyShape(name: string, path: string)
    ensures |DeriveKey(name, path)| <= |name|
    ensures DeriveKey(name, path) == "" || DeriveKey(name, path)[0] != '/'
  {
  }

  /** A name in which the path does not occur only loses its leading slashes. */
  lemma DeriveKeyWithoutPath(name: string, path: string)
    requires !Contains(name, path)
    ensures DeriveKey(name, path) == LStrip(name, {'/'})
  {
    RemoveAllAbsent(name, path);
  }

  /** A parameter directly under the path is keyed by its own last part. */
  lemma DeriveKeyOfChild(path: string, key: string)
    requires |path| > 0
    requires !Contains("/" + key, path)
    requires key == "" || key[0] != '/'
    ensures DeriveKey(path + "/" + key, path) == key
  {
    assert (path + "/" + key)[..|path|] == path;
    assert (path + "/" + key)[|path|..] == "/" + key;
    RemoveAllAbsent("/" + key, path);
    assert ("/" + key)[1..] == key;
  }

  /**
   * The path is removed wherever it occurs, not only in front: before its first occurrence the
   * name is kept, and the rest goes through the same removal.
   */
  lemma DeriveKeyRemovesInnerOccurrence(a: string, path: string, k: string)
    requires |path| > 0
    requires forall i :: 0 <= i < |a| ==> !OccursAt(a + path + k, path, i)
    ensures DeriveKey(a + path + k, path) == LStrip(a + RemoveAll(k, path), {'/'})
  {
    RemoveAllFirstOccurrence(a, path, k);
  }

  /** The result map after the given parameters: each under its derived key, later ones overwriting. */
  function KeyedValues(path: string, ps: seq<Parameter>): map<string, string> {
    if |ps| == 0 then map[]
    else KeyedValues(path, ps[..|ps| - 1])[DeriveKey(ps[|ps| - 1].name, path) := ps[|ps| - 1].value]
  }

  /** The cache after the given parameters: each under its full name. */
  function CacheAll(cache: Cache, ps: seq<Parameter>): Cache {
    if |ps| == 0 then cache
    else CacheAll(cache, ps[..|ps| - 1])[ps[|ps| - 1].name := ps[|ps| - 1].value]
  }

  /** Every key of the result map is the derived key of some parameter. */
  lemma {:induction false} KeyedValuesKeysSound(path: string, ps: seq<Parameter>, k: string)
    requires k in KeyedValues(path, ps)
    ensures exists j :: 0 <= j < |ps| && DeriveKey(ps[j].name, path) == k
  {
    var init := ps[..|ps| - 1];
    if k != DeriveKey(ps[|ps| - 1].name, path) {
      KeyedValuesKeysSound(path, init, k);
      var j :| 0 <= j < |init| && DeriveKey(init[j].name, path) == k;
      assert ps[j] == init[j];
    }
  }

  /** Every parameter's derived key is a key of the result map. */
  lemma {:induction false} KeyedValuesKeysComplete(path: string, ps: seq<Parameter>, j: int)
    requires 0 <= j < |ps|
    ensures DeriveKey(ps[j].name, path) in KeyedValues(path, ps)
  {
    var init := ps[..|ps| - 1];
    if j < |init| {
      assert init[j] == ps[j];
      KeyedValuesKeysComplete(path, init, j);
    }
  }

  /** The keys of the result map are exactly the derived keys of the parameters. */
  lemma KeyedValuesKeys(path: string, ps: seq<Parameter>, k: string)
    ensures k in KeyedValues(path, ps) <==> exists j :: 0 <= j < |ps| && DeriveKey(ps[j].name, path) == k
  {
    if k in KeyedValues(path, ps) {
      KeyedValuesKeysSound(path, ps, k);
    }
    if exists j :: 0 <= j < |ps| && DeriveKey(ps[j].name, path) == k {
      var j :| 0 <= j < |ps| && DeriveKey(ps[j].name, path) == k;
      KeyedValuesKeysComplete(path, ps, j);
    }
  }

  /** On a collision of derived keys the LAST parameter with that key wins. */
  lemma {:induction false} KeyedValuesLastWins(path: string, ps: seq<Parameter>, j: int)
    requires 0 <= j < |ps|
    requires forall l :: j < l < |ps| ==> DeriveKey(ps[l].name, path) != DeriveKey(ps[j].name, path)
    ensures DeriveKey(ps[j].name, path) in KeyedValues(path, ps)
    ensures KeyedValues(path, ps)[DeriveKey(ps[j].name, path)] == ps[j].value
  {
    var init := ps[..|ps| - 1];
    var last := ps[|ps| - 1];
    assert KeyedValues(path, ps) == KeyedValues(path, init)[DeriveKey(last.name, path) := last.value];
    if j < |init| {
      var key := DeriveKey(ps[j].name, path);
      assert init[j] == ps[j];
      assert DeriveKey(last.name, path) != key;
      forall l | j < l < |init|
        ensures DeriveKey(init[l].name, path) != DeriveKey(init[j].name, path)
      {
        assert init[l] == ps[l];
      }
      KeyedValuesLastWins(path, init, j);
    }
  }

  /** Every parameter fetched is cached under its full name; a name never fetched keeps its cached value. */
  lemma {:induction false} CacheAllHoldsEveryName(cache: Cache, ps: seq<Parameter>)
    ensures forall j :: 0 <= j < |ps| ==> ps[j].name in CacheAll(cache, ps)
    ensures forall n :: n in cache ==> n in CacheAll(cache, ps)
    ensures forall n :: n in cache && (forall j :: 0 <= j < |ps| ==> ps[j].name != n) ==> CacheAll(cache, ps)[n] == cache[n]
  {
    if |ps| > 0 {
      var init := ps[..|ps| - 1];
      CacheAllHoldsEveryName(cache, init);
      forall j | 0 <= j < |ps| - 1
        ensures ps[j].name in CacheAll(cache, ps)
      {
        assert init[j] == ps[j];
      }
      forall n | n in cache && (forall j :: 0 <= j < |ps| ==> ps[j].name != n)
        ensures CacheAll(cache, ps)[n] == cache[n]
      {
        forall j | 0 <= j < |init|
          ensures init[j].name != n
        {
          assert init[j] == ps[j];
        }
      }
    }
  }

  /** A name fetched more than once is cached with its LAST value. */
  lemma {:induction false} CacheAllLastWins(cache: Cache, ps: seq<Parameter>, j: int)
    requires 0 <= j < |ps|
    requires forall l :: j < l < |ps| ==> ps[l].name != ps[j].name
    ensures ps[j].name in CacheAll(cache, ps) && CacheAll(cache, ps)[ps[j].name] == ps[j].value
  {
    var init := ps[..|ps| - 1];
    if j < |init| {
      assert init[j] == ps[j];
      forall l | j < l < |init|
        ensures init[l].name != init[j].name
      {
        assert init[l] == ps[l];
      }
      CacheAllLastWins(cache, init, j);
    }
  }

  /**
   * `ParameterStoreConfig.get_parameters_by_path`: walks the parameters of all pages, caching each
   * by name and keying it by its derived key; an error from the paginator propagates, leaving in
   * the cache what was fetched before it.
   */
  method GetParametersByPath(cache: Cache, path: string, answer: PathAnswer)
    returns (result: Result<map<string, string>, string>, cache': Cache)
    ensures cache' == CacheAll(cache, answer.parameters)
    ensures answer.error.None? ==> result == Success(KeyedValues(path, answer.parameters))
    ensures answer.error.Some? ==> result == Failure(answer.error.value)
  {
    var parameters: map<string, string> := map[];
    cache' := cache;
    var ps := answer.parameters;
    var i := 0;
    while i < |ps|
      invariant 0 <= i <= |ps|
      invariant parameters == KeyedValues(path, ps[..i])
      invariant cache' == CacheAll(cache, ps[..i])
    {
      assert ps[..i + 1][..i] == ps[..i];
      var key := DeriveKey(ps[i].name, path);
      parameters := parameters[key := ps[i].value];
      cache' := cache'[ps[i].name := ps[i].value];
      i := i + 1;
    }
    assert ps[..|ps|] == ps;
    if answer.error.Some? {
      result := Failure(answer.error.value);
    } else {
      result := Success(parameters);
    }
  }

  /*
   * Choosing the configuration.
   */

  /** The configuration the parameter-store front-end reads. */
  datatype AppConfig = AppConfig(
    agentId: Option<string>, agentAliasId: Option<string>, uiTitle: string, uiIcon: string, awsRegion: string)

  /** The path all the application's parameters live under. */
  const AppPath: string := "/bedrock-ai-app"

  const DefaultTitle: string := "AI-Powered Assistant"
  const DefaultIcon: string := "\U{1F916}"
  const DefaultRegion: string := "us-east-1"

  /** Python's `d.get(key)` / `os.getenv(key)`. */
  function Get(m: map<string, string>, key: string): Option<string> {
    if key in m then Some(m[key]) else None
  }

  /** Python's `d.get(key, default)` / `os.getenv(key, default)`: an empty string present is kept. */
  function GetOr(m: map<string, string>, key: string, default: string): string {
    Get(m, key).GetOr(default)
  }

  function FromStore(params: map<string, string>): AppConfig {
    AppConfig(Get(params, "agent-id"), Get(params, "agent-alias-id"),
              GetOr(params, "ui-title", DefaultTitle), GetOr(params, "ui-icon", DefaultIcon),
              GetOr(params, "aws-region", DefaultRegion))
  }

  function FromEnvironment(env: map<string, string>): AppConfig {
    AppConfig(Get(env, "BEDROCK_AGENT_ID"), Get(env, "BEDROCK_AGENT_ALIAS_ID"),
              GetOr(env, "BEDROCK_AGENT_TEST_UI_TITLE", DefaultTitle), GetOr(env, "BEDROCK_AGENT_TEST_UI_ICON", DefaultIcon),
              GetOr(env, "AWS_DEFAULT_REGION", DefaultRegion))
  }

  /** The store is used when the path query succeeded with at least one parameter. */
  predicate StoreAnswered(answer: PathAnswer) {
    answer.error.None? && |KeyedValues(AppPath, answer.parameters)| > 0
  }

  /**
   * `get_app_config()`: `answer` is the path query under `/bedrock-ai-app`, `env` the environment.
   * Each setting is read from the chosen source under its own key when present; absent display
   * settings take their defaults and absent agent ids are `None`, whichever source is used.
   */
  function GetAppConfig(answer: PathAnswer, env: map<string, string>): (r: AppConfig)
    ensures StoreAnswered(answer) ==>
      var src := KeyedValues(AppPath, answer.parameters);
      && r.agentId == (if "agent-id" in src then Some(src["agent-id"]) else None)
      && r.agentAliasId == (if "agent-alias-id" in src then Some(src["agent-alias-id"]) else None)
      && r.uiTitle == (if "ui-title" in src then src["ui-title"] else DefaultTitle)
      && r.uiIcon == (if "ui-icon" in src then src["ui-icon"] else DefaultIcon)
      && r.awsRegion == (if "aws-region" in src then src["aws-region"] else DefaultRegion)
    ensures !StoreAnswered(answer) ==>
      && r.agentId == (if "BEDROCK_AGENT_ID" in env then Some(env["BEDROCK_AGENT_ID"]) else None)
      && r.agentAliasId == (if "BEDROCK_AGENT_ALIAS_ID" in env then Some(env["BEDROCK_AGENT_ALIAS_ID"]) else None)
      && r.uiTitle == (if "BEDROCK_AGENT_TEST_UI_TITLE" in env then env["BEDROCK_AGENT_TEST_UI_TITLE"] else DefaultTitle)
      && r.uiIcon == (if "BEDROCK_AGENT_TEST_UI_ICON" in env then env["BEDROCK_AGENT_TEST_UI_ICON"] else DefaultIcon)
      && r.awsRegion == (if "AWS_DEFAULT_REGION" in env then env["AWS_DEFAULT_REGION"] else DefaultRegion)
  {
    if StoreAnswered(answer) then FromStore(KeyedValues(AppPath, answer.parameters))
    else FromEnvironment(env)
  }

  /** When the store answers, the environment plays no part. */
  lemma StoreAnswerIgnoresEnvironment(answer: PathAnswer, env1: map<string, string>, env2: map<string, string>)
    requires StoreAnswered(answer)
    ensures GetAppConfig(answer, env1) == GetAppConfig(answer, env2)
  {
  }

  /** An error or an empty answer falls back to the environment: the parameters fetched play no part. */
  lemma FailedStoreFallsBack(a1: PathAnswer, a2: PathAnswer, env: map<string, string>)
    requires !StoreAnswered(a1) && !StoreAnswered(a2)
    ensures GetAppConfig(a1, env) == GetAppConfig(a2, env)
  {
  }

  /**
   * A parameter `/bedrock-ai-app/agent-id` in a successful answer becomes the agent id, unless a
   * later parameter derives the same key.
   */
  lemma StoreAgentIdUsed(ps: seq<Parameter>, j: int, v: string)
    requires 0 <= j < |ps| && ps[j] == Parameter(AppPath + "/agent-id", v)
    requires forall l :: j < l < |ps| ==> DeriveKey(ps[l].name, AppPath) != "agent-id"
    ensures GetAppConfig(PathAnswer(ps, None), map[]).agentId == Some(v)
  {
    DeriveKeyOfChild(AppPath, "agent-id");
    KeyedValuesLastWins(AppPath, ps, j);
  }

  /** app_parameter_store.py stops at load time unless both agent ids are truthy. */
  predicate AppStarts(config: AppConfig) {
    Truthy(config.agentId) && Truthy(config.agentAliasId)
  }

  /** With no agent ids in the store or in the environment, the front-end never starts. */
  lemma NoAgentIdNoStart(answer: PathAnswer, env: map<string, string>)
    requires StoreAnswered(answer) ==> "agent-id" !in KeyedValues(AppPath, answer.parameters)
    requires !StoreAnswered(answer) ==> "BEDROCK_AGENT_ID" !in env
    ensures !AppStarts(GetAppConfig(answer, env))
  {
  }
}

=== FILE: session.dfy ===
/**
 * The conversation state every front-end keeps in `st.session_state`, and the steps that change
 * it: `init_session_state`, submitting a prompt, "New Chat", logout and the chat-history export.
 * The six front-ends share one model; the ways they differ are the per-variant flags below.
 */
module Session {
  import opened Wrappers
  import opened Text
  import opened Citations
  import opened Agent

  /** The six front-ends: app-ecs.py, app_cognito_clean.py, app_cognito.py, app_enhanced.py, app_parameter_store.py, app_simple.py. */
  datatype Variant = AppEcs | AppCognitoClean | AppCognito | AppEnhanced | AppParameterStore | AppSimple

  datatype Role = User | Assistant

  /** One entry of `messages`: `{"role": ..., "content": ...}`. */
  datatype Message = Message(role: Role, content: string)

  /** One key of `st.session_state`: absent, or holding a value. */
  datatype Slot<T> = Unset | Set(value: T)

  /**
   * The keys of `st.session_state` the front-ends use. `startTime` is `session_start_time` as an
   * opaque instant; `username`/`accessToken` hold Python `None` as `Option.None`; `authStatus` and
   * `logoutClicked` are the ECS front-end's login bookkeeping.
   */
  datatype Store = Store(
    sessionId: Slot<string>,
    messages: Slot<seq<Message>>,
    citations: Slot<seq<Citation>>,
    trace: Slot<Trace>,
    messageCount: Slot<int>,
    startTime: Slot<int>,
    authenticated: Slot<bool>,
    username: Slot<Option<string>>,
    accessToken: Slot<Option<string>>,
    authStatus: Slot<Option<bool>>,
    logoutClicked: Slot<bool>)

  /** The state of a browser session before the script first runs. */
  const Blank: Store := Store(Unset, Unset, Unset, Unset, Unset, Unset, Unset, Unset, Unset, Unset, Unset)

  /*
   * Per-variant flags.
   */

  /** Only ECS checks `agent_id`/`agent_alias_id` before calling the agent. */
  predicate GuardsAgentConfig(v: Variant) { v == AppEcs }

  /** Only ECS replaces a blank answer with the apology. */
  predicate FallsBackOnBlank(v: Variant) { v == AppEcs }

  /** Only ECS stores a fallback assistant message when the invocation fails, and classifies the error for its hint. */
  predicate RepliesOnFailure(v: Variant) { v == AppEcs }

  /** These front-ends show the fixed retry hint under any agent error; the parameter-store one shows none. */
  predicate ShowsRetryHint(v: Variant) { v != AppEcs && v != AppParameterStore }

  /** "New Chat" really resets, except where it only re-runs `init_session_state`. */
  predicate ResetsOnNewChat(v: Variant) { v != AppEnhanced && v != AppParameterStore }

  /** These front-ends show assistant messages through `format_citations`. */
  predicate FormatsCitations(v: Variant) { v == AppEnhanced || v == AppParameterStore }

  /** The Cognito front-ends keep `authenticated`, `username` and `access_token`. */
  predicate KeepsLoginFields(v: Variant) { v == AppCognitoClean || v == AppCognito }

  /** Front-ends with a logout button. */
  predicate HasLogout(v: Variant) { v == AppEcs || KeepsLoginFields(v) }

  /*
   * Initialisation.
   */

  predicate ConversationSet(st: Store) {
    && st.sessionId.Set? && st.messages.Set? && st.citations.Set?
    && st.trace.Set? && st.messageCount.Set? && st.startTime.Set?
  }

  /** Every key the variant's `init_session_state` provides is present. */
  predicate Initialised(v: Variant, st: Store) {
    && ConversationSet(st)
    && (KeepsLoginFields(v) ==> st.authenticated.Set? && st.username.Set? && st.accessToken.Set?)
    && (v == AppEcs ==> st.authStatus.Set? && st.logoutClicked.Set?)
  }

  /** Every key present in `st` holds the same value in `r`. */
  predicate KeepsPresent(st: Store, r: Store) {
    && (st.sessionId.Set? ==> r.sessionId == st.sessionId)
    && (st.messages.Set? ==> r.messages == st.messages)
    && (st.citations.Set? ==> r.citations == st.citations)
    && (st.trace.Set? ==> r.trace == st.trace)
    && (st.messageCount.Set? ==> r.messageCount == st.messageCount)
    && (st.startTime.Set? ==> r.startTime == st.startTime)
    && (st.authenticated.Set? ==> r.authenticated == st.authenticated)
    && (st.username.Set? ==> r.username == st.username)
    && (st.accessToken.Set? ==> r.accessToken == st.accessToken)
    && (st.authStatus.Set? ==> r.authStatus == st.authStatus)
    && (st.logoutClicked.Set? ==> r.logoutClicked == st.logoutClicked)
  }

  function Fill<T>(s: Slot<T>, default: T): Slot<T> {
    if s.Set? then s else Set(default)
  }

  /** The empty `username`/`access_token`: `""` in app_cognito_clean.py, `None` in app_cognito.py. */
  function NoLogin(v: Variant): Option<string> {
    if v == AppCognitoClean then Some("") else None
  }

  /**
   * `init_session_state()`: assigns each of the variant's keys only when it is absent.
   * `freshId` is the `uuid4()` it would draw and `now` the `datetime.now()`.
   */
  function Init(v: Variant, st: Store, freshId: string, now: int): (r: Store)
    ensures Initialised(v, r)
    ensures KeepsPresent(st, r)
    // an absent key gets the variant's default
    ensures st.sessionId.Unset? ==> r.sessionId == Set(freshId)
    ensures st.messages.Unset? ==> r.messages == Set([])
    ensures st.citations.Unset? ==> r.citations == Set([])
    ensures st.trace.Unset? ==> r.trace == Set(map[])
    ensures st.messageCount.Unset? ==> r.messageCount == Set(0)
    ensures st.startTime.Unset? ==> r.startTime == Set(now)
    ensures KeepsLoginFields(v) ==>
      && (st.authenticated.Unset? ==> r.authenticated == Set(false))
      && (st.username.Unset? ==> r.username == Set(NoLogin(v)))
      && (st.accessToken.Unset? ==> r.accessToken == Set(NoLogin(v)))
    ensures v == AppEcs ==>
      && (st.authStatus.Unset? ==> r.authStatus == Set(None))
      && (st.logoutClicked.Unset? ==> r.logoutClicked == Set(false))
    ensures !KeepsLoginFields(v) ==>
      r.authenticated == st.authenticated && r.username == st.username && r.accessToken == st.accessToken
    ensures v != AppEcs ==> r.authStatus == st.authStatus && r.logoutClicked == st.logoutClicked
  {
    var conv := st.(
      sessionId := Fill(st.sessionId, freshId),
      messages := Fill(st.messages, []),
      citations := Fill(st.citations, []),
      trace := Fill(st.trace, map[]),
      messageCount := Fill(st.messageCount, 0),
      startTime := Fill(st.startTime, now));
    if KeepsLoginFields(v) then
      conv.(authenticated := Fill(st.authenticated, false),
            username := Fill(st.username, NoLogin(v)),
            accessToken := Fill(st.accessToken, NoLogin(v)))
    else if v == AppEcs then
      conv.(authStatus := Fill(st.authStatus, None), logoutClicked := Fill(st.logoutClicked, false))
    else conv
  }

  /** On a browser session's first run the conversation starts empty, under the drawn id. */
  lemma InitOfBlank(v: Variant, freshId: string, now: int)
    ensures var r := Init(v, Blank, freshId, now);
      && r.sessionId == Set(freshId) && r.messages == Set([]) && r.messageCount == Set(0)
      && r.citations == Set([]) && r.trace == Set(map[]) && r.startTime == Set(now)
      && (KeepsLoginFields(v) ==> r.authenticated == Set(false) && r.username == Set(NoLogin(v)) && r.accessToken == Set(NoLogin(v)))
      && (v == AppEcs ==> r.authStatus == Set(None) && r.logoutClicked == Set(false))
  {
  }

  /** Re-running `init_session_state` on an initialised state changes nothing. */
  lemma InitNoOp(v: Variant, st: Store, freshId: string, now: int)
    requires Initialised(v, st)
    ensures Init(v, st, freshId, now) == st
  {
  }

  /*
   * Conversation invariants.
   */

  /** Number of user-authored entries. */
  function CountUsers(ms: seq<Message>): nat {
    if |ms| == 0 then 0 else CountUsers(ms[..|ms| - 1]) + (if ms[|ms| - 1].role == User then 1 else 0)
  }

  /** `message_count` equals the number of user messages in `messages`. */
  predicate CountConsistent(st: Store) {
    st.messages.Set? && st.messageCount.Set? && st.messageCount.value == CountUsers(st.messages.value)
  }

  /** Every user turn is answered by exactly one assistant turn right after it. */
  predicate Paired(ms: seq<Message>) {
    |ms| % 2 == 0 && forall i :: 0 <= i < |ms| ==> ms[i].role == (if i % 2 == 0 then User else Assistant)
  }

  /*
   * Submitting a prompt.
   */

  /**
   * What the page shows besides the messages: nothing, the configuration error, the error of the
   * agent step, or the error raised while showing an answer that was already stored (the same
   * `except` branch, reached after the state was updated, with the same hint).
   */
  datatype Report =
    | Quiet
    | NotConfigured
    | AgentFailed(message: string, hint: Option<Hint>)
    | DisplayFailed(message: string, hint: Option<Hint>)

  datatype Turn = Turn(store: Store, report: Report)

  function Append(st: Store, m: Message): (r: Store)
    requires st.messages.Set?
    ensures r.messages.Set? && r.messages.value == st.messages.value + [m]
  {
    st.(messages := Set(st.messages.value + [m]))
  }

  /** The hint a front-end without the ECS classifier shows under any error of its `except` branch. */
  function FixedHint(v: Variant): Option<Hint> {
    if ShowsRetryHint(v) then Some(RetryConnection) else None
  }

  /** The `except Exception as e` branch, reached from the agent step. */
  function Failed(v: Variant, asked: Store, error: string): Turn
    requires asked.messages.Set?
  {
    if RepliesOnFailure(v) then Turn(Append(asked, Message(Assistant, FailureReply)), AgentFailed(error, Some(ErrorHint(error))))
    else Turn(asked, AgentFailed(error, FixedHint(v)))
  }

  /**
   * The success branch: the answer and the reply's citations and trace are stored first, then the
   * answer is shown, which raises where formatting its citations does.
   */
  function Answered(v: Variant, asked: Store, reply: Reply, content: string): (t: Turn)
    requires asked.messages.Set?
    ensures t.store == Append(asked, Message(Assistant, content)).(citations := Set(reply.citations), trace := Set(reply.trace))
    ensures t.report.Quiet? || t.report.DisplayFailed?
    ensures t.report.DisplayFailed? <==> FormatsCitations(v) && FormatCitations(content, reply.citations).Failure?
    ensures t.report.DisplayFailed? ==>
      && t.report.message == MissingS3Location
      && (t.report.hint.None? <==> v == AppParameterStore)
      && (ShowsRetryHint(v) ==> t.report.hint == Some(RetryConnection))
  {
    var answered := Append(asked, Message(Assistant, content)).(citations := Set(reply.citations), trace := Set(reply.trace));
    if FormatsCitations(v) && FormatCitations(content, reply.citations).Failure? then
      Turn(answered, DisplayFailed(FormatCitations(content, reply.citations).error, FixedHint(v)))
    else Turn(answered, Quiet)
  }

  /** Conversation identity and login fields: what a submit never touches. */
  predicate SameIdentity(st: Store, r: Store) {
    && r.sessionId == st.sessionId && r.startTime == st.startTime
    && r.authenticated == st.authenticated && r.username == st.username && r.accessToken == st.accessToken
    && r.authStatus == st.authStatus && r.logoutClicked == st.logoutClicked
  }

  /**
   * The `if prompt := st.chat_input(...)` block. `agentId`/`agentAliasId` are the module-level
   * configuration, `invocation` what `invoke_agent` did and `loads` stands for `json.loads`.
   */
  function Submit(v: Variant, st: Store, prompt: string, agentId: Option<string>, agentAliasId: Option<string>,
                  invocation: Invocation, loads: string -> Parsed): (t: Turn)
    requires Initialised(v, st)
    ensures prompt == "" ==> t == Turn(st, Quiet)
    ensures Initialised(v, t.store) && SameIdentity(st, t.store)
    // the user's message is appended, and counted, before anything else happens
    ensures prompt != "" ==>
      var before, after := st.messages.value, t.store.messages.value;
      && |before| < |after| <= |before| + 2 && after[..|before|] == before
      && after[|before|] == Message(User, prompt)
      && t.store.messageCount.value == st.messageCount.value + 1
    // the configuration guard: nothing more happens when it trips
    ensures t.report.NotConfigured? <==>
      prompt != "" && GuardsAgentConfig(v) && !(Truthy(agentId) && Truthy(agentAliasId))
    // an assistant message follows exactly on success, or on failure where the front-end replies anyway
    ensures prompt != "" ==>
      (|t.store.messages.value| == |st.messages.value| + 2 <==>
        t.report.Quiet? || t.report.DisplayFailed? || (RepliesOnFailure(v) && t.report.AgentFailed?))
    ensures prompt != "" && t.report.AgentFailed? && RepliesOnFailure(v) ==>
      t.store.messages.value[|st.messages.value| + 1] == Message(Assistant, FailureReply)
    // side data is replaced by the stored reply's, and kept otherwise
    ensures prompt != "" && (t.report.Quiet? || t.report.DisplayFailed?) ==>
      && invocation.Success?
      && t.store.messages.value[|st.messages.value| + 1].role == Assistant
      && t.store.citations == Set(invocation.value.citations) && t.store.trace == Set(invocation.value.trace)
    ensures !(t.report.Quiet? || t.report.DisplayFailed?) ==> t.store.citations == st.citations && t.store.trace == st.trace
    // and an answer is stored whenever the guard passes, the call succeeds and its text can be read
    ensures (prompt != "" && !t.report.NotConfigured? && invocation.Success?
             && NormalizeReply(FallsBackOnBlank(v), invocation.value.outputText, loads).Success?) ==>
      t.report.Quiet? || t.report.DisplayFailed?
    // showing the new answer fails exactly when its citations cannot be formatted
    ensures prompt != "" && t.report.Quiet? && FormatsCitations(v) ==>
      FormatCitations(t.store.messages.value[|st.messages.value| + 1].content, invocation.value.citations).Success?
    ensures t.report.DisplayFailed? ==>
      && FormatsCitations(v) && invocation.Success? && t.report.message == MissingS3Location
      && FormatCitations(t.store.messages.value[|st.messages.value| + 1].content, invocation.value.citations).Failure?
      && (t.report.hint.None? <==> v == AppParameterStore)
      && (ShowsRetryHint(v) ==> t.report.hint == Some(RetryConnection))
    // the error is always reported; ECS adds a hint chosen from the error text, the parameter-store
    // front-end no hint, and the others the fixed retry hint
    ensures t.report.AgentFailed? ==>
      && (invocation.Failure? ==> t.report.message == invocation.error)
      && (t.report.hint.None? <==> v == AppParameterStore)
      && (RepliesOnFailure(v) ==> t.report.hint == Some(ErrorHint(t.report.message)))
      && (ShowsRetryHint(v) ==> t.report.hint == Some(RetryConnection))
  {
    if prompt == "" then Turn(st, Quiet)
    else
      var asked := Append(st, Message(User, prompt)).(messageCount := Set(st.messageCount.value + 1));
      if GuardsAgentConfig(v) && !(Truthy(agentId) && Truthy(agentAliasId)) then Turn(asked, NotConfigured)
      else match invocation
        case Failure(e) => Failed(v, asked, e)
        case Success(reply) =>
          match NormalizeReply(FallsBackOnBlank(v), reply.outputText, loads)
          case Failure(e) => Failed(v, asked, e)
          case Success(content) => Answered(v, asked, reply, content)
  }

  /** The assistant message stored on success is the normalized reply text. */
  lemma SubmitStoresNormalizedReply(v: Variant, st: Store, prompt: string, agentId: Option<string>, agentAliasId: Option<string>,
                                    reply: Reply, loads: string -> Parsed)
    requires Initialised(v, st) && prompt != ""
    requires !GuardsAgentConfig(v) || (Truthy(agentId) && Truthy(agentAliasId))
    ensures var t := Submit(v, st, prompt, agentId, agentAliasId, Success(reply), loads);
      match NormalizeReply(FallsBackOnBlank(v), reply.outputText, loads)
      case Success(content) =>
        (t.report.Quiet? || t.report.DisplayFailed?)
        && t.store.messages.value == st.messages.value + [Message(User, prompt), Message(Assistant, content)]
      case Failure(e) =>
        t.report.AgentFailed? && t.report.message == e
        && t.store.messages.value == st.messages.value + [Message(User, prompt)]
           + (if RepliesOnFailure(v) then [Message(Assistant, FailureReply)] else [])
  {
  }

  /** An invocation that raises leaves the user message in place; only ECS answers it, with the fixed fallback. */
  lemma SubmitInvocationFails(v: Variant, st: Store, prompt: string, agentId: Option<string>, agentAliasId: Option<string>,
                              error: string, loads: string -> Parsed)
    requires Initialised(v, st) && prompt != ""
    requires !GuardsAgentConfig(v) || (Truthy(agentId) && Truthy(agentAliasId))
    ensures var t := Submit(v, st, prompt, agentId, agentAliasId, Failure(error), loads);
      && t.report == AgentFailed(error, if RepliesOnFailure(v) then Some(ErrorHint(error))
                                        else if ShowsRetryHint(v) then Some(RetryConnection) else None)
      && t.store.messages.value == st.messages.value + [Message(User, prompt)]
         + (if RepliesOnFailure(v) then [Message(Assistant, FailureReply)] else [])
      && t.store.citations == st.citations && t.store.trace == st.trace
  {
  }

  /** ECS without agent ids: the user message and the count stay, no agent call, no assistant message. */
  lemma SubmitUnconfigured(st: Store, prompt: string, agentId: Option<string>, agentAliasId: Option<string>,
                           invocation: Invocation, loads: string -> Parsed)
    requires Initialised(AppEcs, st) && prompt != ""
    requires !Truthy(agentId) || !Truthy(agentAliasId)
    ensures var t := Submit(AppEcs, st, prompt, agentId, agentAliasId, invocation, loads);
      && t.report == NotConfigured
      && t.store == st.(messages := Set(st.messages.value + [Message(User, prompt)]),
                         messageCount := Set(st.messageCount.value + 1))
  {
  }

  lemma {:induction false} CountUsersAppend(ms: seq<Message>, m: Message)
    ensures CountUsers(ms + [m]) == CountUsers(ms) + (if m.role == User then 1 else 0)
  {
    assert (ms + [m])[..|ms|] == ms;
  }

  /** Submitting keeps `message_count` equal to the number of user messages. */
  lemma SubmitKeepsCount(v: Variant, st: Store, prompt: string, agentId: Option<string>, agentAliasId: Option<string>,
                         invocation: Invocation, loads: string -> Parsed)
    requires Initialised(v, st) && CountConsistent(st)
    ensures CountConsistent(Submit(v, st, prompt, agentId, agentAliasId, invocation, loads).store)
  {
    var t := Submit(v, st, prompt, agentId, agentAliasId, invocation, loads);
    if prompt != "" {
      var before, after := st.messages.value, t.store.messages.value;
      var withUser := before + [Message(User, prompt)];
      CountUsersAppend(before, Message(User, prompt));
      assert after[..|before|] == before && after[|before|] == Message(User, prompt);
      if |after| == |before| + 2 {
        assert after[|before| + 1].role == Assistant;
        assert after == withUser + [after[|before| + 1]];
        CountUsersAppend(withUser, after[|before| + 1]);
      } else {
        assert after == withUser;
      }
    }
  }

  /** In ECS with the agent configured, every user turn is followed by exactly one assistant turn. */
  lemma EcsSubmitKeepsPairing(st: Store, prompt: string, agentId: Option<string>, agentAliasId: Option<string>,
                              invocation: Invocation, loads: string -> Parsed)
    requires Initialised(AppEcs, st) && Paired(st.messages.value)
    requires Truthy(agentId) && Truthy(agentAliasId)
    ensures Paired(Submit(AppEcs, st, prompt, agentId, agentAliasId, invocation, loads).store.messages.value)
  {
    if prompt != "" {
      var answer := EcsSubmitAnswers(st, prompt, agentId, agentAliasId, invocation, loads);
      PairedAppend(st.messages.value, Message(User, prompt), answer);
    }
  }

  /** Configured ECS answers every prompt: the user message and one assistant message are appended. */
  lemma EcsSubmitAnswers(st: Store, prompt: string, agentId: Option<string>, agentAliasId: Option<string>,
                         invocation: Invocation, loads: string -> Parsed) returns (answer: Message)
    requires Initialised(AppEcs, st) && prompt != ""
    requires Truthy(agentId) && Truthy(agentAliasId)
    ensures answer.role == Assistant
    ensures Submit(AppEcs, st, prompt, agentId, agentAliasId, invocation, loads).store.messages.value
         == st.messages.value + [Message(User, prompt), answer]
  {
    var after := Submit(AppEcs, st, prompt, agentId, agentAliasId, invocation, loads).store.messages.value;
    answer := after[|st.messages.value| + 1];
    assert after == after[..|st.messages.value|] + [after[|st.messages.value|], answer];
  }

  /** Appending a user turn and its answer keeps the alternation. */
  lemma PairedAppend(ms: seq<Message>, u: Message, a: Message)
    requires Paired(ms) && u.role == User && a.role == Assistant
    ensures Paired(ms + [u, a])
  {
    var r := ms + [u, a];
    forall i | 0 <= i < |r|
      ensures r[i].role == (if i % 2 == 0 then User else Assistant)
    {
      if i < |ms| {
        assert r[i] == ms[i];
      }
    }
  }

  /** The example: a `{"instruction": "calc", "result": "$0.05/hr"}` answer to a first prompt. */
  lemma SubmitEnvelopeExample(v: Variant, freshId: string, now: int, agentId: Option<string>, agentAliasId: Option<string>,
                              outputText: string, loads: string -> Parsed)
    requires Truthy(agentId) && Truthy(agentAliasId)
    requires !IsBlank(outputText)
    requires loads(outputText) == JsonObject(map[InstructionKey := "calc", ResultKey := "$0.05/hr"])
    ensures var t := Submit(v, Init(v, Blank, freshId, now), "What is EC2 pricing?", agentId, agentAliasId,
                            Success(Reply(outputText, [], map[])), loads);
      && t.store.messages == Set([Message(User, "What is EC2 pricing?"), Message(Assistant, "$0.05/hr")])
      && t.store.messageCount == Set(1)
  {
    var st := Init(v, Blank, freshId, now);
    EnvelopeYieldsResult(FallsBackOnBlank(v), outputText, loads, map[InstructionKey := "calc", ResultKey := "$0.05/hr"]);
    SubmitStoresNormalizedReply(v, st, "What is EC2 pricing?", agentId, agentAliasId, Reply(outputText, [], map[]), loads);
  }

  /*
   * "New Chat".
   */

  /** The "New Chat" button: a reset under a fresh id, or a re-run of `init_session_state`. */
  function NewChat(v: Variant, st: Store, freshId: string, now: int): (r: Store)
    requires Initialised(v, st)
    ensures Initialised(v, r)
    ensures ResetsOnNewChat(v) ==>
      && r.messages == Set([]) && r.messageCount == Set(0) && r.citations == Set([]) && r.trace == Set(map[])
      && r.sessionId == Set(freshId) && r.startTime == Set(now)
      && r.authenticated == st.authenticated && r.username == st.username && r.accessToken == st.accessToken
      && r.authStatus == st.authStatus && r.logoutClicked == st.logoutClicked
    ensures !ResetsOnNewChat(v) ==> r == st
  {
    if ResetsOnNewChat(v) then
      st.(messages := Set([]), messageCount := Set(0), citations := Set([]), trace := Set(map[]),
          sessionId := Set(freshId), startTime := Set(now))
    else
      InitNoOp(v, st, freshId, now);
      Init(v, st, freshId, now)
  }

  /** A reset issues a session id different from the old one (given `uuid4` draws a new one) and restores the invariants. */
  lemma NewChatStartsOver(v: Variant, st: Store, freshId: string, now: int)
    requires Initialised(v, st) && ResetsOnNewChat(v)
    requires st.sessionId != Set(freshId)
    ensures var r := NewChat(v, st, freshId, now);
      r.sessionId != st.sessionId && CountConsistent(r) && Paired(r.messages.value)
  {
  }

  /** Where "New Chat" only re-runs initialisation, the history and the session id survive it. */
  lemma NewChatKeepsConversation(v: Variant, st: Store, freshId: string, now: int)
    requires Initialised(v, st) && !ResetsOnNewChat(v)
    ensures var r := NewChat(v, st, freshId, now);
      r.messages == st.messages && r.sessionId == st.sessionId && r.messageCount == st.messageCount
  {
  }

  /*
   * Logout.
   */

  /** The logout button (ECS: its `on_click` callback; the authenticator's own logout is not modelled). */
  function Logout(v: Variant, st: Store): (r: Store)
    requires HasLogout(v) && Initialised(v, st)
    ensures Initialised(v, r)
    ensures KeepsLoginFields(v) ==> r.authenticated == Set(false) && r.username == Set(NoLogin(v)) && r.accessToken == Set(NoLogin(v))
    ensures v == AppEcs ==> r.authStatus == Set(None) && r.logoutClicked == Set(true)
    ensures v == AppCognito ==> r.messages == Set([])
    ensures v != AppCognito ==> r.messages == st.messages
    ensures r.messageCount == st.messageCount && r.sessionId == st.sessionId
         && r.citations == st.citations && r.trace == st.trace && r.startTime == st.startTime
    // the other front-ends' login fields are left alone
    ensures !KeepsLoginFields(v) ==> r.authenticated == st.authenticated && r.username == st.username && r.accessToken == st.accessToken
    ensures v != AppEcs ==> r.authStatus == st.authStatus && r.logoutClicked == st.logoutClicked
  {
    match v
    case AppEcs => st.(logoutClicked := Set(true), authStatus := Set(None))
    case AppCognitoClean => st.(authenticated := Set(false), username := Set(Some("")), accessToken := Set(Some("")))
    case AppCognito =>
      st.(authenticated := Set(false), username := Set(None), accessToken := Set(None), messages := Set([]))
  }

  /** app_cognito.py's logout empties the history but not the count, so the count no longer matches. */
  lemma CognitoLogoutBreaksCount(st: Store)
    requires Initialised(AppCognito, st) && CountConsistent(st)
    requires CountUsers(st.messages.value) > 0
    ensures !CountConsistent(Logout(AppCognito, st))
    ensures Logout(AppCognito, st).messageCount.value > CountUsers(Logout(AppCognito, st).messages.value)
  {
  }

  /*
   * Export and display.
   */

  /** The `chat_data` dictionary; `messageCount` and `user` are absent where the variant leaves them out. */
  datatype ExportRecord = ExportRecord(
    sessionId: string, timestamp: string, messages: seq<Message>, messageCount: Slot<int>, user: Slot<Option<string>>)

  /**
   * The chat-history download, offered only when there are messages. `timestamp` is
   * `datetime.now().isoformat()`; `ecsUser` is what the ECS authenticator reports as the user.
   */
  function Export(v: Variant, st: Store, timestamp: string, ecsUser: Option<string>): (r: Option<ExportRecord>)
    requires Initialised(v, st)
    ensures r.Some? <==> |st.messages.value| > 0
    ensures r.Some? ==>
      && r.value.sessionId == st.sessionId.value && r.value.timestamp == timestamp
      && r.value.messages == st.messages.value
      && (r.value.messageCount.Set? <==> v != AppParameterStore)
      && (r.value.messageCount.Set? ==> r.value.messageCount.value == st.messageCount.value)
      && (r.value.user.Set? <==> HasLogout(v))
      && (KeepsLoginFields(v) ==> r.value.user == st.username)
      && (v == AppEcs ==> r.value.user == Set(ecsUser))
  {
    if |st.messages.value| == 0 then None
    else
      var count := if v == AppParameterStore then Unset else Set(st.messageCount.value);
      var user := if v == AppEcs then Set(ecsUser) else if KeepsLoginFields(v) then st.username else Unset;
      Some(ExportRecord(st.sessionId.value, timestamp, st.messages.value, count, user))
  }

  /** Where the count is kept consistent, the exported count is the number of user messages exported. */
  lemma ExportCountMatchesMessages(v: Variant, st: Store, timestamp: string, ecsUser: Option<string>)
    requires Initialised(v, st) && CountConsistent(st) && v != AppParameterStore && |st.messages.value| > 0
    ensures var r := Export(v, st, timestamp, ecsUser);
      r.Some? && r.value.messageCount == Set(CountUsers(r.value.messages))
  {
  }

  /** Right after a resetting "New Chat" there is nothing to download. */
  lemma NewChatLeavesNothingToExport(v: Variant, st: Store, freshId: string, now: int, timestamp: string, ecsUser: Option<string>)
    requires Initialised(v, st) && ResetsOnNewChat(v)
    ensures Export(v, NewChat(v, st, freshId, now), timestamp, ecsUser).None?
  {
  }

  /** After a prompt the download is offered, under the same session id, and it holds the prompt. */
  lemma SubmitMakesExportable(v: Variant, st: Store, prompt: string, agentId: Option<string>, agentAliasId: Option<string>,
                              invocation: Invocation, loads: string -> Parsed, timestamp: string, ecsUser: Option<string>)
    requires Initialised(v, st) && prompt != ""
    ensures var r := Export(v, Submit(v, st, prompt, agentId, agentAliasId, invocation, loads).store, timestamp, ecsUser);
      && r.Some? && r.value.sessionId == st.sessionId.value
      && |st.messages.value| < |r.value.messages| && r.value.messages[|st.messages.value|] == Message(User, prompt)
  {
  }

  /** Some assistant answer is among `ms`. */
  predicate HasAnswer(ms: seq<Message>) {
    exists i :: 0 <= i < |ms| && ms[i].role == Assistant
  }

  /**
   * The history as displayed: assistant entries go through `format_citations` with the LATEST
   * citations. The loop runs outside any `try`, so a `KeyError` there ends the run.
   */
  function RenderHistory(v: Variant, st: Store): (r: Result<seq<string>, string>)
    requires Initialised(v, st)
    ensures r.Failure? <==>
      FormatsCitations(v) && HasAnswer(st.messages.value)
      && |st.citations.value| > 0 && !AllS3(FlattenReferences(st.citations.value))
    ensures r.Failure? ==> r.error == MissingS3Location
    ensures r.Success? ==> |r.value| == |st.messages.value|
    // user entries, and every entry where no citations are formatted, are shown as stored
    ensures r.Success? ==> forall i :: 0 <= i < |st.messages.value| && (st.messages.value[i].role == User || !FormatsCitations(v))
                                       ==> r.value[i] == st.messages.value[i].content
    // assistant entries of the formatting front-ends carry the latest citations
    ensures r.Success? && FormatsCitations(v) ==>
      forall i :: 0 <= i < |st.messages.value| && st.messages.value[i].role == Assistant ==>
        && FormatCitations(st.messages.value[i].content, st.citations.value).Success?
        && r.value[i] == FormatCitations(st.messages.value[i].content, st.citations.value).value
  {
    var ms, cs := st.messages.value, st.citations.value;
    // the first assistant entry raises exactly where formatting any text with these citations does
    if FormatsCitations(v) && HasAnswer(ms) && |cs| > 0 && !AllS3(FlattenReferences(cs)) then Failure(MissingS3Location)
    else
      Success(seq(|ms|, i requires 0 <= i < |ms| =>
        if ms[i].role == Assistant && FormatsCitations(v) then FormatCitations(ms[i].content, cs).value else ms[i].content))
  }

  /**
   * After a successful turn every earlier assistant message is shown with the NEW reply's
   * citations: a past answer cannot keep the sources it was given with.
   */
  lemma LatestCitationsRenderEveryAnswer(v: Variant, st: Store, prompt: string, agentId: Option<string>, agentAliasId: Option<string>,
                                         invocation: Invocation, loads: string -> Parsed, i: int)
    requires Initialised(v, st) && FormatsCitations(v) && prompt != ""
    requires Submit(v, st, prompt, agentId, agentAliasId, invocation, loads).report.Quiet?
    requires 0 <= i < |st.messages.value| && st.messages.value[i].role == Assistant
    ensures var h := RenderHistory(v, Submit(v, st, prompt, agentId, agentAliasId, invocation, loads).store);
      && h.Success?
      && h.value[i] == FormatCitations(st.messages.value[i].content, invocation.value.citations).value
  {
    var t := Submit(v, st, prompt, agentId, agentAliasId, invocation, loads);
    assert t.store.messages.value[i] == t.store.messages.value[..|st.messages.value|][i];
  }

  /**
   * A reference with a non-S3 location: the answer and its citations are stored before showing it
   * raises, so the turn reports the `KeyError` while the state is that of a success, and every
   * later display of the history raises it again.
   */
  lemma OtherLocationBreaksHistory(v: Variant, st: Store, prompt: string, agentId: Option<string>, agentAliasId: Option<string>,
                                   reply: Reply, loads: string -> Parsed)
    requires Initialised(v, st) && FormatsCitations(v) && prompt != ""
    requires NormalizeReply(FallsBackOnBlank(v), reply.outputText, loads).Success?
    requires |reply.citations| > 0 && !AllS3(FlattenReferences(reply.citations))
    ensures var t := Submit(v, st, prompt, agentId, agentAliasId, Success(reply), loads);
      && t.report == DisplayFailed(MissingS3Location, if v == AppEnhanced then Some(RetryConnection) else None)
      && t.store.messages.value == st.messages.value
           + [Message(User, prompt), Message(Assistant, NormalizeReply(FallsBackOnBlank(v), reply.outputText, loads).value)]
      && t.store.citations == Set(reply.citations)
      && RenderHistory(v, t.store) == Failure(MissingS3Location)
  {
    var t := Submit(v, st, prompt, agentId, agentAliasId, Success(reply), loads);
    var n := |st.messages.value|;
    assert t.store.messages.value[n + 1].role == Assistant;
    assert HasAnswer(t.store.messages.value);
  }
}

=== FILE: text.dfy ===
/** String helpers with the semantics of the Python built-ins the front-ends rely on. */
module Text {
  import opened Wrappers

  predicate IsAsciiDigit(c: char) {
    '0' <= c <= '9'
  }

  predicate AllAsciiDigits(s: string) {
    forall i :: 0 <= i < |s| ==> IsAsciiDigit(s[i])
  }

  /** `sub` occurs in `s` starting at index `i`. */
  predicate OccursAt(s: string, sub: string, i: int) {
    0 <= i <= |s| - |sub| && s[i..i + |sub|] == sub
  }

  /** Python's `sub in s` on two strings. */
  predicate Contains(s: string, sub: string) {
    exists i | 0 <= i <= |s| - |sub| :: OccursAt(s, sub, i)
  }

  /** Python truthiness of an optional string: neither `None` nor `""`. */
  predicate Truthy(o: Option<string>) {
    o.Some? && |o.value| > 0
  }

  /** The characters Python's argument-less `str.strip()` removes. */
  const Whitespace: set<char> := {
    '\t', '\n', '\U{000B}', '\U{000C}', '\r', '\U{001C}', '\U{001D}', '\U{001E}', '\U{001F}', ' ',
    '\U{0085}', '\U{00A0}', '\U{1680}', '\U{2000}', '\U{2001}', '\U{2002}', '\U{2003}', '\U{2004}',
    '\U{2005}', '\U{2006}', '\U{2007}', '\U{2008}', '\U{2009}', '\U{200A}', '\U{2028}', '\U{2029}',
    '\U{202F}', '\U{205F}', '\U{3000}'
  }

  /** Python's `s.lstrip(chars)`: the longest suffix of `s` that does not start with one of `chars`. */
  function LStrip(s: string, chars: set<char>): (r: string)
    ensures |r| <= |s| && r == s[|s| - |r|..]
    ensures r == "" || r[0] !in chars
    ensures forall i :: 0 <= i < |s| - |r| ==> s[i] in chars
    decreases |s|
  {
    if |s| > 0 && s[0] in chars then LStrip(s[1..], chars) else s
  }

  /** Python's `s.rstrip(chars)`: the longest prefix of `s` that does not end with one of `chars`. */
  function RStrip(s: string, chars: set<char>): (r: string)
    ensures |r| <= |s| && r == s[..|r|]
    ensures r == "" || r[|r| - 1] !in chars
    ensures forall i :: |r| <= i < |s| ==> s[i] in chars
    decreases |s|
  {
    if |s| > 0 && s[|s| - 1] in chars then RStrip(s[..|s| - 1], chars) else s
  }

  /** Python's `s.strip(chars)`. */
  function Strip(s: string, chars: set<char>): string {
    RStrip(LStrip(s, chars), chars)
  }

  /** Stripping leaves nothing exactly when every character is one of those stripped. */
  lemma StripEmptyIff(s: string, chars: set<char>)
    ensures Strip(s, chars) == "" <==> forall i :: 0 <= i < |s| ==> s[i] in chars
  {
    var l := LStrip(s, chars);
    if l != "" {
      assert l[0] !in chars;
      assert s[|s| - |l|] !in chars;
    }
  }

  /** Python's `s.replace(pat, "")`: every non-overlapping occurrence of `pat`, scanning from the left, removed. */
  function RemoveAll(s: string, pat: string): (r: string)
    ensures |r| <= |s|
    ensures |pat| > 0 && |s| >= |pat| && s[..|pat|] == pat ==> r == RemoveAll(s[|pat|..], pat)
    decreases |s|
  {
    if |pat| == 0 then s  // the empty pattern matches between characters, and the replacement is empty too
    else if |s| < |pat| then s
    else if s[..|pat|] == pat then RemoveAll(s[|pat|..], pat)
    else [s[0]] + RemoveAll(s[1..], pat)
  }

  /**
   * `replace` removes the FIRST occurrence and goes on after it: what precedes it is kept. With
   * `RemoveAllAbsent` this fixes `RemoveAll` on every input, by the position of the first occurrence.
   */
  lemma {:induction false} RemoveAllFirstOccurrence(a: string, pat: string, k: string)
    requires |pat| > 0
    requires forall i :: 0 <= i < |a| ==> !OccursAt(a + pat + k, pat, i)
    ensures RemoveAll(a + pat + k, pat) == a + RemoveAll(k, pat)
    decreases |a|
  {
    if |a| == 0 {
      assert a + pat + k == pat + k;
      RemoveAllLeading(pat, k);
    } else {
      var s, t := a + pat + k, a[1..] + pat + k;
      assert s[0] == a[0] && s[1..] == t;
      assert !OccursAt(s, pat, 0);
      RemoveAllSkip(s, pat);
      forall i | 0 <= i < |a[1..]|
        ensures !OccursAt(t, pat, i)
      {
        OccursAtTail(s, pat, i);
      }
      RemoveAllFirstOccurrence(a[1..], pat, k);
      calc {
        RemoveAll(s, pat);
        [a[0]] + RemoveAll(t, pat);
        [a[0]] + (a[1..] + RemoveAll(k, pat));
        { assert [a[0]] + a[1..] == a; }
        a + RemoveAll(k, pat);
      }
    }
  }

  /** A leading occurrence is removed and the scan goes on right after it. */
  lemma RemoveAllLeading(pat: string, k: string)
    requires |pat| > 0
    ensures RemoveAll(pat + k, pat) == RemoveAll(k, pat)
  {
    var s := pat + k;
    assert s[..|pat|] == pat && s[|pat|..] == k;
  }

  /** An occurrence in the tail is an occurrence one position further in the whole. */
  lemma OccursAtTail(s: string, pat: string, i: nat)
    requires |s| > 0
    ensures OccursAt(s[1..], pat, i) <==> OccursAt(s, pat, i + 1)
  {
    if i + |pat| <= |s| - 1 {
      assert s[1..][i..i + |pat|] == s[i + 1..i + 1 + |pat|];
    }
  }

  /** Where the pattern does not start the text, `replace` keeps the first character and goes on. */
  lemma RemoveAllSkip(s: string, pat: string)
    requires |pat| > 0 && |s| >= |pat| && !OccursAt(s, pat, 0)
    ensures RemoveAll(s, pat) == [s[0]] + RemoveAll(s[1..], pat)
  {
    assert s[0..|pat|] == s[..|pat|];
  }

  /** A string in which the pattern never occurs comes back from `replace` unchanged. */
  lemma {:induction false} RemoveAllAbsent(s: string, pat: string)
    requires !Contains(s, pat)
    ensures RemoveAll(s, pat) == s
    decreases |s|
  {
    if |pat| > 0 && |s| >= |pat| {
      assert s[0..0 + |pat|] == s[..|pat|];
      assert !OccursAt(s, pat, 0);
      forall i | OccursAt(s[1..], pat, i)
        ensures OccursAt(s, pat, i + 1)
      {
        assert s[1..][i..i + |pat|] == s[i + 1..i + 1 + |pat|];
      }
      RemoveAllAbsent(s[1..], pat);
    }
  }

  function DigitChar(d: nat): (c: char)
    requires d < 10
    ensures IsAsciiDigit(c) && c as int - '0' as int == d
  {
    ('0' as int + d) as char
  }

  /** The number an ASCII digit string denotes in base 10. */
  function DecimalValue(s: string): nat
    requires AllAsciiDigits(s)
  {
    if |s| == 0 then 0 else DecimalValue(s[..|s| - 1]) * 10 + (s[|s| - 1] as int - '0' as int)
  }

  /** Python's `str(n)` / `f"{n}"` for a non-negative integer. */
  function NatToDecimal(n: nat): (r: string)
    ensures |r| > 0 && AllAsciiDigits(r)
    ensures r[0] == '0' ==> r == "0"
    ensures DecimalValue(r) == n
    decreases n
  {
    if n < 10 then [DigitChar(n)] else NatToDecimal(n / 10) + [DigitChar(n % 10)]
  }
}

=== FILE: wrappers.dfy ===
/** Failure-compatible helper datatypes shared by the rest of the model. */
module Wrappers {

  /** A value that may be missing; also Python's `None` versus a present value. */
  datatype Option<+T> = None | Some(value: T) {

    /** The wrapped value, or `default` when there is none (Python's `d.get(k, default)`). */
    function GetOr(default: T): T {
      match this
      case Some(v) => v
      case None => default
    }
  }

  /** The outcome of a step that can raise: a value, or the text of the exception. */
  datatype Result<+R, +E> = Success(value: R) | Failure(error: E)
}
